=== FILE: README.md ===
# map_deps dependency inventory, modelled in Dafny

`map_deps` reads a MapServer map file and lists every file it depends on:
fonts, symbol images, templates, shapefile datasets and tile indexes. It
counts how often each file is referenced. It also flags constructs whose
dependencies it cannot resolve on its own, such as database or remote
connection types, plugins, tile indexes, script-backed style items and
TEMPLATE output formats. The engine is the `Mapfile` class. Its
constructor registers the map file itself. `process_mapfile` then walks the
parsed `mapObj`. Four helpers do the resolving and recording: `add_file`,
`add_font`, `add_symbol` and `add_warning`.

This project models that engine as pure functions over immutable values:

- `optional.dfy`: `Option`, for NULL string fields and unset settings.
- `decimal.dfy`: decimal rendering of integers, for echoing a raw connection type code.
- `boost_path.dfy`: the boost filesystem (version 3) operations the engine uses. These are `/=`, `is_relative`, `extension` and `replace_extension`, on POSIX paths. A path that starts with exactly two separators begins with a network root name (`//server`). Such a path is absolute only once a separator follows the name.
- `map_model.dfy`: the parsed map (`MapObj`, layers, classes, styles, labels, symbols, output formats, font set, web block). It also classifies the raw connection type.
- `inventory.dfy`: the engine's state (warnings, review flag, ledger), `add_warning`, the ledger increment, and the left fold every loop is built from. It also defines `Report`, the warnings and references a piece of the walk adds, and `Appends`, which relates a state before and after to a report.
- `resolver.dfy`: `add_file`, `add_font` and `add_symbol`.
- `walker.dfy`: the constructor's initial state and `process_mapfile`. Each piece of the walk carries a contract that it appends exactly its report. A report is defined on the map alone, without a state: the exact warning texts in order, the kind each file is resolved under, and the canonical paths it counts.
- `accounting.dfy`: the count theorem. The walk grows "references plus warnings" by exactly `Demand`, a count defined on the map independently of the walk. `Demand` counts one per set file field, one per label font, one per glob match, one per FILE= option of a TEMPLATE format and one per review-only construct. For each symbol lookup it counts the same-named symbols that carry a font or pixmap, or 1 when no symbol has the name. So an empty data glob counts nothing, a same-named symbol of another kind counts nothing, and a name shared by two pixmap symbols counts two. The walk only appends warnings and increments counts. It keeps the review flag equal to "some warning was recorded".
- `properties.dfy`: per-construct properties (output formats, symbols, connection types, shapefile globbing, layer templates and flags, the web block).

Modelling choices:

- The ledger (`std::unordered_map<std::string, int>`) is a `multiset<string>`. The count of a path is its multiplicity. `Inventory.Entries` gives the map view, in which every entry is at least 1. The map's iteration order is unspecified, so no order is modelled.
- The filesystem is a parameter, `Resolver.FileSystem`, with three functions: existence, canonicalisation and glob. Each takes the current directory and a path as written. `glob` returns an empty sequence when glob(3) fails or matches nothing.
- The working directory is a value. The constructor resolves under the caller's directory. The walk resolves under the directory `current_path(mappath)` switches to (`Walker.WalkCtx`). The directory is never mutated, so restoring it on every exit needs no model.
- `MS_DEFAULT_MAPFILE` is the parameter `Env.defaultDir`: the parent directory of that file when the variable is set.
- A NULL class pointer behaves like an empty class. A NULL symbol pointer behaves like a symbol without a name. So neither needs an extra `Option`.
- `mappath` is a plain string. MapServer's loader always sets it, so the `if (map->mappath)` switch is always taken.

Behaviour of the code that is easy to misread, which the model follows exactly:

- The symbol scan does not stop at the first name match (mapfile.cc:175-186). Every same-named symbol has its font or pixmap resolved (`Resolver.AddSymbolLaterDuplicateActs`).
- "Symbol <name> NOT FOUND" is emitted once per `add_symbol` call. Two styles naming the same missing symbol give two warnings (`Properties.MissingSymbolWarnsPerStyle`).
- A layer is skipped only when its name is NULL (mapfile.cc:276). A layer with an empty name is processed.
- A class's template is resolved before its styles and labels (mapfile.cc:283-296).
- A shapefile layer with a tile index gets two warnings. "TILEINDEX needs manual review" comes from the dispatch. "Found TILEINDEX <v> needs manual review" comes after the layer's files.

## Model

| member | source | states |
|---|---|---|
| Inventory.AddWarning | mapfile.cc:192-196 | appends exactly the message at the end of the warnings and leaves the ledger alone; afterwards the review flag and "some warning exists" agree, whatever the state before |
| Inventory.Record | mapfile.cc:144 | the count of the referenced path goes up by one (inserted at 1 when absent); every other path's count and the warnings are unchanged |
| Inventory.Entries | mapfile.hh:43 | the ledger read as the source's map: a path is present exactly when referenced, with its reference count, which is at least 1 |
| Inventory.FoldGrows | mapfile.cc:219-232 | a loop whose every iteration only appends/increments by a known amount only appends/increments by the sum of those amounts |
| Inventory.FoldAppends | mapfile.cc:280-299 | a loop whose every iteration appends its element's report appends the reports of all elements in element order |
| BoostPath.Anchored | mapfile.cc:146-150 | a path taken relative to a base is exactly `base /= p` for a relative p, so it starts with base and ends with p, and is p itself for an absolute one; it gives both the "not found" path under mappath and the directory `current_path(mappath)` switches to (mapfile.cc:209) |
| Resolver.AddFile | mapfile.cc:122-154 | fallback directory first: a hit there records its canonical path and the primary path is not consulted; otherwise an existing p records canonical(p) once; a miss records exactly "<kind>: <expected> not found!" and no reference; warnings/other counts untouched on a hit; exactly one reference or warning in every case |
| Resolver.AddFont | mapfile.cc:156-167 | a name the font set holds is resolved as a "font" file; an absent name adds exactly "FONT <name> not found in fontset" and leaves the ledger unchanged |
| Resolver.ScanSymbol | mapfile.cc:176-185 | one symbol of the set: a symbol of another name adds nothing; a same-named TrueType symbol with a font adds its font set lookup; a same-named Pixmap symbol with a path adds that path resolved as an "image"; any other adds nothing |
| Resolver.AddSymbol | mapfile.cc:169-190 | no symbol of that name: exactly one "Symbol <name> NOT FOUND" and no reference; otherwise the contributions of every same-named symbol in set order, with no early exit and no "NOT FOUND" |
| Resolver.AddSymbolLaterDuplicateActs | mapfile.cc:175-186 | the scan has no early exit: a same-named symbol after an earlier match still has its font or pixmap resolved |
| Properties.AddSymbolAllFound | mapfile.cc:175-186 | when every same-named symbol resolves, a lookup warns about nothing and records exactly the font set files of the TrueType symbols and the pixmap paths of the Pixmap symbols, one each |
| Properties.TrueTypeFontMissing | mapfile.cc:179-181 | a TrueType symbol whose font the font set lacks yields "FONT <font> not found in fontset" and no reference |
| Properties.PixmapResolvedAsImage | mapfile.cc:182-184 | a Pixmap symbol's full path is recorded when it exists and reported as "image: <expected> not found!" when it does not |
| MapModel.Classify | mapfile.cc:301-397 | the switch's case selection: a raw value is Unknown exactly when no case names it, and its enum value is recoverable from the result |
| MapModel.ClassifyCode | mapfile.cc:302-392 | each named case is selected by its MapServer enum value (INLINE 0 ... CONTOUR 16) |
| MapModel.TagNameInjective | mapfile.cc:348-392 | the thirteen review-only connection types carry pairwise distinct tags |
| Walker.CheckConnection | mapfile.cc:301-397 | INLINE adds nothing; SHAPEFILE adds the shapefile report; every other type adds exactly its one warning and no reference |
| Walker.GlobPattern | mapfile.cc:308-312 | the glob pattern ends in the extension ".*", starts with the shape path, and before ".*" ends with the stem of the dataset name |
| Walker.GlobPatternStem | mapfile.cc:308-312 | for a dataset name with a non-empty stem the pattern is exactly `shapepath /= stem` followed by ".*", so the separator between them is the one `/=` inserts |
| Walker.GlobPatternEmptyStem | mapfile.cc:334-338 | for a name that is all extension (".shp") the pattern is `shapepath /= name` with the name cut off, followed by ".*": the shape path and the separator `/=` put before the name remain |
| Walker.GlobPatternEmptyName | mapfile.cc:334-338 | for an empty name the pattern is the shape path with its own extension replaced by ".*" |
| Walker.CheckShapefile | mapfile.cc:304-347 | a tile index adds "TILEINDEX needs manual review" and then each glob match resolved as "layer.tileindex"; otherwise data adds each glob match resolved as "layer.data"; with neither, nothing |
| Properties.ReviewOnlyConnection | mapfile.cc:348-392 | each of the thirteen review-only types appends exactly "CONNECTIONTYPE <TAG> requires manual review" and touches no ledger entry |
| Properties.UnknownConnectionEchoesCode | mapfile.cc:393-396 | an unrecognised type yields "CONNECTIONTYPE unknown (<value>), requires manual review." and the raw value reads back from it |
| Properties.ConnectionWarningsDistinct | mapfile.cc:348-396 | two different flagged raw values always give different warnings |
| Decimal.IntToStringRoundTrip | mapfile.cc:394-395 | the decimal echo of an integer parses back to that integer |
| Decimal.NatToString | mapfile.cc:394-395 | a natural number is written as at least one digit, with no leading zero unless it is 0 |
| BoostPath.AnchoredRootName | mapfile.cc:146-150 | a path `//name` with no further separator is relative (root name, no root directory), so it is reported as base followed by the path: "/maps/" and "//ab" give "/maps///ab" |
| BoostPath.Join | mapfile.cc:308-311 | `base /= p` keeps base as prefix and p as suffix, leaves base alone for empty p, and yields p for empty base; for non-empty base and p it inserts one character exactly when p does not start with '/' and base does not end with '/', and that character is '/' |
| BoostPath.ReplaceExtensionWildcard | mapfile.cc:312 | replacing the extension by ".*" keeps the directory and stem and makes ".*" the new extension |
| BoostPath.JoinPrefix | mapfile.cc:308-311 | `base /= p` equals `base /= p[..n]` followed by the rest of p, for any non-empty prefix: the junction depends only on the first character of p |
| BoostPath.JoinKeepsExtension | mapfile.cc:337 | `base /= p` for a non-empty p has the extension of p |
| Walker.Open | mapfile.cc:100-113 | the constructor's state holds exactly the map file's own report, resolved as "mapfile" from the caller's directory: one reference or one warning, with the flag in step |
| Walker.CheckOutputFormat | mapfile.cc:218-232 | an output format adds a warning per FILE= option of a TEMPLATE format, and never a reference |
| Properties.OutputFormatFlagsOnly | mapfile.cc:218-232 | a TEMPLATE format appends exactly one "OUTPUTFORMAT: <name> <driver> <option>" per FILE= option, in order, and never a reference; any other driver changes nothing |
| Walker.OptionalFile | mapfile.cc:235-248 | a set field is resolved under its kind; an unset one adds nothing |
| Walker.CheckWeb | mapfile.cc:250-267 | the seven web fields are resolved in header, footer, empty, error, template, mintemplate, maxtemplate order, each under its own "web.<field>" kind |
| Properties.WebAllMissing | mapfile.cc:250-267 | each set web field is resolved under its own "web.<field>" label, in header, footer, empty, error, template, mintemplate, maxtemplate order |
| Accounting.WebGrows | mapfile.cc:250-267 | the web block adds exactly one reference or warning per set field |
| Walker.CheckClass | mapfile.cc:280-299 | a class adds its template as "layer.class.template", then each style's symbol lookup, then each label's font lookup, in that order |
| Accounting.ClassGrows | mapfile.cc:280-299 | a class adds one reference or warning for its template, the symbol demand of each style, and one per label font |
| Properties.MissingSymbolWarnsPerStyle | mapfile.cc:286-290 | two styles naming the same missing symbol give two "NOT FOUND" warnings and no reference |
| Properties.SameFileTwiceOneEntry | mapfile.cc:139-144 | referencing the same existing file twice gives one ledger entry whose count rose by two |
| Properties.AddFilesAllFound | mapfile.cc:340-345 | resolving glob matches that all exist records each canonical path once more and warns about nothing |
| Properties.AddFilesAllMissing | mapfile.cc:340-345 | resolving glob matches none of which exists records nothing and warns once per match under the given kind, in order |
| Properties.ShapefileDataAllFound | mapfile.cc:333-346 | a shapefile layer's data whose matches all exist adds one reference per match and no warning |
| Properties.ShapefileDataAllMissing | mapfile.cc:333-346 | data matches that cannot be resolved are each reported as "layer.data: <expected> not found!" |
| Properties.ShapefileTileIndexAllFound | mapfile.cc:306-319 | a tile index whose matches all exist adds "TILEINDEX needs manual review" and one reference per match |
| Properties.ShapefileTileIndexAllMissing | mapfile.cc:306-319 | tile index matches that cannot be resolved are each reported as "layer.tileindex: <expected> not found!" after the review warning |
| Properties.ShapefileEmptyGlob | mapfile.cc:304-347 | an empty glob adds no reference; data then adds nothing at all, a tile index only its "TILEINDEX needs manual review" |
| Properties.TileIndexTakesPrecedence | mapfile.cc:306-333 | with a tile index set, the layer's data does not affect the dispatch |
| Accounting.ConnectionGrows | mapfile.cc:301-397 | the dispatch adds 0 (INLINE), 1 plus the match count (tile index), the match count (data), or exactly 1 (every other type) |
| Walker.CheckLayerFiles | mapfile.cc:399-406 | footer, header and template are resolved in that order as "layer.footer", "layer.header" and "layer.template", and a "dummy" template is skipped |
| Properties.LayerFilesAllMissing | mapfile.cc:399-406 | when none of a layer's own files resolves, each set one is reported under its own "layer.<field>" kind, footer before header before template |
| Walker.CheckLayerFlags | mapfile.cc:408-421 | a layer's flags are appended in order: "Found javascript STYLEITEM <v>", "Found TILEINDEX <v> needs manual review", "Found Plugin Library <v> needs manual review", each only when its field calls for it |
| Walker.CheckLayer | mapfile.cc:272-424 | a layer without a name adds nothing; a named one adds its classes, the dispatch, its own files and its flags, in that order |
| Properties.UnnamedLayerSkipped | mapfile.cc:276 | a layer without a name leaves the state unchanged |
| Properties.DummyTemplateSkipped | mapfile.cc:404-406 | the template "dummy" behaves exactly like no template |
| Properties.OtherTemplateResolved | mapfile.cc:404-406 | any other template, such as "dummy.html", adds exactly one reference or warning |
| Properties.TileIndexAlwaysFlagged | mapfile.cc:415-421 | whatever the connection type, a named layer's tile index gets "Found TILEINDEX <v> needs manual review", followed only by the plugin warning |
| Properties.JavascriptStyleItemFlagged | mapfile.cc:408-421 | a "javascript://" style item is flagged with its full value, followed only by the tile index and plugin warnings |
| Properties.PluginLibraryFlagged | mapfile.cc:419-421 | a plugin library gets "Found Plugin Library <v> needs manual review" as the layer's last warning |
| Accounting.LayerGrows | mapfile.cc:272-424 | a named layer adds exactly its classes', dispatch, file and flag demand; an unnamed one adds nothing |
| Walker.ProcessMapfile | mapfile.cc:198-428 | the walk appends exactly the map's report: output formats, the font set file as "fontset", the symbol set file as "symbolset", the web block, then each layer in order, all resolved from mappath |
| Properties.QuietMapChangesNothing | mapfile.cc:198-428 | a map with no set files, no TEMPLATE formats and only unnamed layers leaves the state exactly as it was |
| Accounting.ProcessMapfileGrows | mapfile.cc:198-428 | the walk only appends warnings and raises counts, keeps the review flag equal to "some warning exists", and adds exactly the map's demand |
| Properties.WalkOnlyAppends | mapfile.cc:198-428 | no count ever decreases, earlier warnings stay in place, and the review flag is never cleared |
| Walker.Run | mapfile.cc:100-113 | constructor then walk, the sequence map_deps.cc:55-56 runs, from the empty state: the map file's report followed by the walk's, and the flag is set exactly when a warning exists |
| Accounting.RunAccounts | mapfile.cc:100-113 | constructor plus walk: the flag is set exactly when a warning exists, and references plus warnings equal 1 (the map file) plus the demand |

## Left out

- Library setup and teardown (`MapServer`, `proj_lib`, `version`, `msProjLibInitFromEnv`) are foreign calls into libmapserver.
- Parsing (`msLoadMap`, `msApplyDefaultSubstitutions`) is outside the model. The parsed `mapObj` is an input value, and a parse failure never reaches the engine.
- The `OLD_BOOST` canonicalisation polyfill is conditional compilation. Canonicalisation is the uninterpreted `canonical` parameter.
- Real filesystem calls and glob(3) are parameters. Exceptions they could throw are not modelled: permission errors in `exists`, a vanished file in `canonical`, or a failing `current_path(mappath)`.
- `print` and the debug `printf` output are report formatting and are not modelled.
- The command-line entry point (map_deps.cc) is not modelled. It exits with status 1 when no argument is given. It reports a map file that does not exist without running the engine. It catches a `std::runtime_error` thrown by the engine and then returns 0. The library setup object is built before that `try` (map_deps.cc:49), and its constructor throws `std::runtime_error` when `msSetup` or `msDebugInitFromEnv` fails (mapfile.cc:455-470). Nothing catches that exception, so the process ends through `std::terminate`. Otherwise it returns 0, including when the map file does not exist.
- BoostPath.IsRelative: the three-character spelling `//x` counts as a root name here, as in current boost releases. Some older version-3 releases gave it a root directory, which made it absolute.
- BoostPath.ExtensionLength: the last element of a root-name path is the name after `//`. For `//.` and `//..` boost takes the whole root name as the file name and so finds the extension ".". The model finds no extension.
- BoostPath.Join: with root names, `base /= p` is no longer relative exactly when base is: "/" joined with "/x" is "//x", a root name and so relative. The contract now states only that a result built on a base that does not start with '/' is relative.
- Counts are unbounded integers. `int` overflow of a reference count is not modelled.
- Resolver.AddFont: the font set is a `map` looked up by exact key. MapServer's `msLookupHashTable` (maphash.c, which is not part of this model) compares keys without regard to case. So a label FONT "Arial" against a font set alias "arial" resolves in the program. The model instead adds "FONT Arial not found in fontset".
- Strings are C strings, so they hold no NUL character. Under that assumption the 6-byte `strncmp` with "dummy" is string equality.
- Accounting.WebGrows: states only how many references or warnings the web block adds. The kinds and order are stated by `Walker.CheckWeb`.
- Accounting.ClassGrows: states only how many references or warnings a class adds. The kinds and the template-styles-labels order are stated by `Walker.CheckClass`.
- Accounting.LayerGrows: states counts only. The kinds, warning texts and order are stated by `Walker.CheckLayer`, `Walker.CheckConnection`, `Walker.CheckLayerFiles` and `Walker.CheckLayerFlags`.

=== FILE: accounting.dfy ===
/** The walk's size is accounted for: it grows the state by exactly the
    map's `Demand`, a count defined independently of the walk. `Demand`
    counts one per set file field (font set, symbol set, web block, layer
    footer, header and template other than "dummy", class template), one
    per label font, one per glob match of a shapefile dataset, one per
    FILE= option of a TEMPLATE output format, one per review-only construct
    (connection types, tile indexes, plugins, javascript style items), and
    for each symbol lookup the number of same-named symbols carrying a font
    or pixmap, or 1 when no symbol has the name. So a data glob with no
    match counts nothing, a same-named symbol of another kind counts
    nothing, and two same-named pixmaps count two. The theorems also say
    the walk only appends warnings and increments counts, and keeps the
    review flag in step with the warnings. */
module Accounting {
  import opened Optional
  import opened MapModel
  import opened Inventory
  import opened Resolver
  import opened Walker

  function Present(p: Option<string>): nat {
    if p.Some? then 1 else 0
  }

  function OptionDemand(o: string): nat {
    if StartsWith(o, FileOptionPrefix) then 1 else 0
  }

  function FormatDemand(f: OutputFormat): nat {
    if f.driver == TemplateDriver then Sum(f.options, OptionDemand) else 0
  }

  function WebDemand(w: Web): nat {
    Present(w.header) + Present(w.footer) + Present(w.empty) + Present(w.error)
      + Present(w.template) + Present(w.minTemplate) + Present(w.maxTemplate)
  }

  function StyleDemand(symbols: seq<Symbol>): Style -> nat {
    (st: Style) => if st.symbolName.Some? then SymbolDemand(symbols, st.symbolName.value) else 0
  }

  function LabelDemand(lb: Label): nat {
    Present(lb.font)
  }

  function ClassDemand(symbols: seq<Symbol>): ClassObj -> nat {
    (k: ClassObj) => Present(k.template) + Sum(k.styles, StyleDemand(symbols)) + Sum(k.labels, LabelDemand)
  }

  /** Inline: nothing; shapefile: the glob matches, plus the tile index
      warning; every other type: its one warning. */
  function ConnectionDemand(c: Ctx, shapepath: Option<string>, l: Layer): nat {
    var conn := Classify(l.connectionType);
    if conn.Inline? then 0
    else if conn.Shapefile? then
      if l.tileIndex.Some? then 1 + |Matches(c, shapepath, l.tileIndex.value)|
      else if l.data.Some? then |Matches(c, shapepath, l.data.value)|
      else 0
    else 1
  }

  function LayerFilesDemand(l: Layer): nat {
    Present(l.footer) + Present(l.header)
      + (if l.template.Some? && l.template.value != DummyTemplate then 1 else 0)
  }

  function LayerFlagsDemand(l: Layer): nat {
    (if l.styleItem.Some? && StartsWith(l.styleItem.value, JavascriptScheme) then 1 else 0)
      + Present(l.tileIndex) + Present(l.pluginLibrary)
  }

  function LayerDemand(c: Ctx, m: MapObj): Layer -> nat {
    (l: Layer) =>
      if l.name.None? then 0
      else (Sum(l.classes, ClassDemand(m.symbolset.symbols)) + ConnectionDemand(c, m.shapepath, l)
        + LayerFilesDemand(l) + LayerFlagsDemand(l))
  }

  function MapDemand(env: Env, m: MapObj): nat {
    Sum(m.outputFormats, FormatDemand) + Present(m.fontset.filename) + Present(m.symbolset.filename)
      + WebDemand(m.web) + Sum(m.layers, LayerDemand(WalkCtx(env, m), m))
  }

  // ---- one lemma per level of the walk --------------------------------------

  lemma OutputFormatGrows(s: State, f: OutputFormat)
    ensures Grows(s, CheckOutputFormat(s, f), FormatDemand(f))
  {
    if f.driver == TemplateDriver {
      FoldGrows(s, f.options, FormatOptionStep(f), OptionDemand);
    }
  }

  lemma OutputFormatsGrow(s: State, formats: seq<OutputFormat>)
    ensures Grows(s, Fold(s, formats, CheckOutputFormat), Sum(formats, FormatDemand))
  {
    forall a, f | f in formats ensures Grows(a, CheckOutputFormat(a, f), FormatDemand(f)) {
      OutputFormatGrows(a, f);
    }
    FoldGrows(s, formats, CheckOutputFormat, FormatDemand);
  }

  lemma OptionalFileGrows(c: Ctx, s: State, p: Option<string>, kind: string)
    ensures Grows(s, OptionalFile(c, s, p, kind), Present(p))
  {
  }

  lemma WebGrows(c: Ctx, s: State, w: Web)
    ensures Grows(s, CheckWeb(c, s, w), WebDemand(w))
  {
    var s1 := OptionalFile(c, s, w.header, "web.header");
    var s2 := OptionalFile(c, s1, w.footer, "web.footer");
    var s3 := OptionalFile(c, s2, w.empty, "web.empty");
    var s4 := OptionalFile(c, s3, w.error, "web.error");
    var s5 := OptionalFile(c, s4, w.template, "web.template");
    var s6 := OptionalFile(c, s5, w.minTemplate, "web.mintemplate");
    var s7 := OptionalFile(c, s6, w.maxTemplate, "web.maxtemplate");
    OptionalFileGrows(c, s, w.header, "web.header");
    OptionalFileGrows(c, s1, w.footer, "web.footer");
    GrowsTrans(s, s1, s2, Present(w.header), Present(w.footer));
    OptionalFileGrows(c, s2, w.empty, "web.empty");
    OptionalFileGrows(c, s3, w.error, "web.error");
    GrowsTrans(s2, s3, s4, Present(w.empty), Present(w.error));
    GrowsTrans(s, s2, s4, Present(w.header) + Present(w.footer), Present(w.empty) + Present(w.error));
    OptionalFileGrows(c, s4, w.template, "web.template");
    OptionalFileGrows(c, s5, w.minTemplate, "web.mintemplate");
    OptionalFileGrows(c, s6, w.maxTemplate, "web.maxtemplate");
    GrowsTrans(s4, s5, s6, Present(w.template), Present(w.minTemplate));
    GrowsTrans(s4, s6, s7, Present(w.template) + Present(w.minTemplate), Present(w.maxTemplate));
  }

  lemma ClassGrows(c: Ctx, symbols: seq<Symbol>, s: State, k: ClassObj)
    ensures Grows(s, CheckClass(c, symbols, s, k), ClassDemand(symbols)(k))
  {
    var s1 := OptionalFile(c, s, k.template, "layer.class.template");
    var s2 := Fold(s1, k.styles, StyleStep(c, symbols));
    forall a, st | st in k.styles ensures Grows(a, StyleStep(c, symbols)(a, st), StyleDemand(symbols)(st)) {
    }
    FoldGrows(s1, k.styles, StyleStep(c, symbols), StyleDemand(symbols));
    forall a, lb | lb in k.labels ensures Grows(a, LabelStep(c)(a, lb), LabelDemand(lb)) {
    }
    FoldGrows(s2, k.labels, LabelStep(c), LabelDemand);
  }

  lemma ClassesGrow(c: Ctx, symbols: seq<Symbol>, s: State, classes: seq<ClassObj>)
    ensures Grows(s, Fold(s, classes, ClassStep(c, symbols)), Sum(classes, ClassDemand(symbols)))
  {
    forall a, k | k in classes ensures Grows(a, ClassStep(c, symbols)(a, k), ClassDemand(symbols)(k)) {
      ClassGrows(c, symbols, a, k);
    }
    FoldGrows(s, classes, ClassStep(c, symbols), ClassDemand(symbols));
  }

  lemma AddFilesGrow(c: Ctx, s: State, paths: seq<string>, kind: string)
    ensures Grows(s, Fold(s, paths, AddFileStep(c, kind)), |paths|)
  {
    var one := (p: string) => 1;
    forall a, p | p in paths ensures Grows(a, AddFileStep(c, kind)(a, p), one(p)) {
    }
    FoldGrows(s, paths, AddFileStep(c, kind), one);
    SumOnes(paths, one);
  }

  lemma {:induction false} SumOnes<T>(xs: seq<T>, w: T -> nat)
    requires forall x :: w(x) == 1
    ensures Sum(xs, w) == |xs|
    decreases |xs|
  {
    if |xs| > 0 {
      SumOnes(xs[1..], w);
    }
  }

  lemma ConnectionGrows(c: Ctx, shapepath: Option<string>, s: State, l: Layer)
    ensures Grows(s, CheckConnection(c, shapepath, s, l), ConnectionDemand(c, shapepath, l))
  {
    if Classify(l.connectionType).Shapefile? {
      if l.tileIndex.Some? {
        var w := AddWarning(s, "TILEINDEX needs manual review");
        var ms := Matches(c, shapepath, l.tileIndex.value);
        AddFilesGrow(c, w, ms, "layer.tileindex");
        GrowsTrans(s, w, Fold(w, ms, AddFileStep(c, "layer.tileindex")), 1, |ms|);
      } else if l.data.Some? {
        AddFilesGrow(c, s, Matches(c, shapepath, l.data.value), "layer.data");
      }
    }
  }

  lemma LayerFilesGrow(c: Ctx, s: State, l: Layer)
    ensures Grows(s, CheckLayerFiles(c, s, l), LayerFilesDemand(l))
  {
  }

  lemma LayerFlagsGrow(s: State, l: Layer)
    ensures Grows(s, CheckLayerFlags(s, l), LayerFlagsDemand(l))
  {
  }

  lemma LayerGrows(c: Ctx, m: MapObj, s: State, l: Layer)
    ensures Grows(s, CheckLayer(c, m, s, l), LayerDemand(c, m)(l))
  {
    if l.name.Some? {
      var syms := m.symbolset.symbols;
      var s1 := Fold(s, l.classes, ClassStep(c, syms));
      var s2 := CheckConnection(c, m.shapepath, s1, l);
      var s3 := CheckLayerFiles(c, s2, l);
      var s4 := CheckLayerFlags(s3, l);
      var d1 := Sum(l.classes, ClassDemand(syms));
      var d2 := ConnectionDemand(c, m.shapepath, l);
      ClassesGrow(c, syms, s, l.classes);
      ConnectionGrows(c, m.shapepath, s1, l);
      LayerFilesGrow(c, s2, l);
      LayerFlagsGrow(s3, l);
      GrowsTrans(s, s1, s2, d1, d2);
      GrowsTrans(s2, s3, s4, LayerFilesDemand(l), LayerFlagsDemand(l));
      GrowsTrans(s, s2, s4, d1 + d2, LayerFilesDemand(l) + LayerFlagsDemand(l));
    }
  }

  lemma LayersGrow(c: Ctx, m: MapObj, s: State, layers: seq<Layer>)
    ensures Grows(s, Fold(s, layers, LayerStep(c, m)), Sum(layers, LayerDemand(c, m)))
  {
    forall a, l | l in layers ensures Grows(a, LayerStep(c, m)(a, l), LayerDemand(c, m)(l)) {
      LayerGrows(c, m, a, l);
    }
    FoldGrows(s, layers, LayerStep(c, m), LayerDemand(c, m));
  }

  /** The walk only appends warnings and increments counts, grows the ledger
      and the log together by exactly the map's demand, and keeps the review
      flag equal to "some warning was recorded". */
  lemma ProcessMapfileGrows(env: Env, m: MapObj, s: State)
    ensures Grows(s, ProcessMapfile(env, m, s), MapDemand(env, m))
  {
    var c := WalkCtx(env, m);
    var s1 := Fold(s, m.outputFormats, CheckOutputFormat);
    var s2 := OptionalFile(c, s1, m.fontset.filename, "fontset");
    var s3 := OptionalFile(c, s2, m.symbolset.filename, "symbolset");
    var s4 := CheckWeb(c, s3, m.web);
    var s5 := Fold(s4, m.layers, LayerStep(c, m));
    var d1 := Sum(m.outputFormats, FormatDemand);
    OutputFormatsGrow(s, m.outputFormats);
    OptionalFileGrows(c, s1, m.fontset.filename, "fontset");
    OptionalFileGrows(c, s2, m.symbolset.filename, "symbolset");
    WebGrows(c, s3, m.web);
    LayersGrow(c, m, s4, m.layers);
    GrowsTrans(s, s1, s2, d1, Present(m.fontset.filename));
    GrowsTrans(s2, s3, s4, Present(m.symbolset.filename), WebDemand(m.web));
    GrowsTrans(s, s2, s4, d1 + Present(m.fontset.filename), Present(m.symbolset.filename) + WebDemand(m.web));
    GrowsTrans(s, s4, s5, d1 + Present(m.fontset.filename) + Present(m.symbolset.filename) + WebDemand(m.web),
      Sum(m.layers, LayerDemand(c, m)));
  }

  /** A whole run: the map file's own reference or warning, then the walk;
      the review flag is set exactly when a warning was recorded. */
  lemma RunAccounts(env: Env, m: MapObj, mapfile: string)
    ensures Valid(Run(env, m, mapfile))
    ensures Weight(Run(env, m, mapfile)) == 1 + MapDemand(env, m)
  {
    var s0 := Open(env, m, mapfile);
    assert Grows(Initial, s0, 1);
    ProcessMapfileGrows(env, m, s0);
  }
}

=== FILE: boost_path.dfy ===
/** The POSIX path operations of boost filesystem (version 3 semantics) that
    the inventory uses: `operator/=`, `is_relative`, `extension` and
    `replace_extension`. Paths are plain strings. */
module BoostPath {
  import opened Optional

  const Separator: char := '/'

  /** POSIX: a path is absolute exactly when it has a root directory. A
      path that starts with exactly two separators begins with a network
      root name (`//server`); the root directory is the separator after that
      name, so `//server` alone is relative. */
  predicate IsRelative(p: string) {
    |p| == 0 || p[0] != Separator || RootNameOnly(p)
  }

  /** `//name` with no separator after the name (or `//` itself): a root
      name and no root directory. */
  predicate RootNameOnly(p: string) {
    && |p| >= 2 && p[0] == Separator && p[1] == Separator
    && forall i :: 2 <= i < |p| ==> p[i] != Separator
  }

  /** `base /= p`: an empty `p` changes nothing; otherwise a separator is
      inserted unless `base` is empty, already ends in one, or `p` starts
      with one. An absolute `p` is appended, not substituted. */
  function Join(base: string, p: string): (r: string)
    ensures p == "" ==> r == base
    ensures base <= r
    ensures |base| + |p| <= |r| <= |base| + |p| + 1
    ensures r[|r| - |p|..] == p
    ensures p != "" && base != "" ==>
      (|r| == |base| + |p| + 1 <==> (p[0] != Separator && base[|base| - 1] != Separator))
    ensures |r| == |base| + |p| + 1 ==> r[|base|] == Separator
    ensures base == "" ==> r == p
    ensures base != "" && base[0] != Separator ==> IsRelative(r)
  {
    if p == "" then base
    else if p[0] != Separator && base != "" && base[|base| - 1] != Separator then base + [Separator] + p
    else base + p
  }

  /** `p` taken relative to `base`: `base /= p` for a relative `p`, and `p`
      itself for an absolute one. This is both where a path is reported as
      missing from (under `mappath`) and the directory `current_path(dir)`
      switches to (under the current directory). */
  function Anchored(base: string, p: string): (e: string)
    ensures IsRelative(p) ==> e == Join(base, p)
    ensures IsRelative(p) ==> base <= e && |p| <= |e| && e[|e| - |p|..] == p
    ensures !IsRelative(p) ==> e == p
  {
    if IsRelative(p) then Join(base, p) else p
  }

  /** A path whose extension is known: `replace_extension(".*")` cuts
      exactly that many characters and appends ".*". */
  lemma ReplaceKnownExtension(p: string, e: nat)
    requires ExtensionLength(p) == e
    ensures e <= |p| && ReplaceExtension(p, ".*") == p[..|p| - e] + ".*"
  {
  }

  /** A path that is `head` followed by exactly its extension: replacing
      the extension leaves `head`. */
  lemma ReplaceWholeExtension(p: string, head: string, tail: string, e: nat)
    requires p == head + tail && |tail| == e && ExtensionLength(p) == e
    ensures ReplaceExtension(p, ".*") == head + ".*"
  {
    assert p[..|p| - e] == head;
  }

  lemma HeadSlice(s: string, head: string, tail: string, a: nat)
    requires s == head + tail && a <= |head|
    ensures s[a..|head|] == head[a..]
    ensures s[..|head|] == head
  {
  }

  /** A missing path spelled `//name` is relative, and `/=` puts no
      separator before its leading one: it is reported as `base` followed by
      the path, "/maps/" and "//ab" giving "/maps///ab". */
  lemma AnchoredRootName(base: string, p: string)
    requires RootNameOnly(p)
    ensures Anchored(base, p) == base + p
    ensures base == "/maps/" && p == "//ab" ==> Anchored(base, p) == "/maps///ab"
  {
  }

  /** Where the last element of `p` begins: just past its last separator. */
  function FilenameStart(p: string): (k: nat)
    ensures k <= |p|
    ensures k == 0 || p[k - 1] == Separator
    ensures forall i :: k <= i < |p| ==> p[i] != Separator
  {
    SeparatorBefore(p, |p|)
  }

  /** Just past the last separator among the first `n` characters of `p`,
      scanning backwards from `n`. */
  function SeparatorBefore(p: string, n: nat): (k: nat)
    requires n <= |p|
    ensures k <= n
    ensures k == 0 || p[k - 1] == Separator
    ensures forall i :: k <= i < n ==> p[i] != Separator
    decreases n
  {
    if n == 0 then 0
    else if p[n - 1] == Separator then n
    else SeparatorBefore(p, n - 1)
  }

  /** The position of the last dot in `f`, if any. */
  function LastDot(f: string): (r: Option<nat>)
    ensures r.Some? ==> r.value < |f| && f[r.value] == '.'
    ensures r.Some? ==> forall i :: r.value < i < |f| ==> f[i] != '.'
    ensures r.None? ==> forall i :: 0 <= i < |f| ==> f[i] != '.'
  {
    DotBefore(f, |f|)
  }

  /** The last dot among the first `n` characters of `f`, scanning backwards. */
  function DotBefore(f: string, n: nat): (r: Option<nat>)
    requires n <= |f|
    ensures r.Some? ==> r.value < n && f[r.value] == '.'
    ensures r.Some? ==> forall i :: r.value < i < n ==> f[i] != '.'
    ensures r.None? ==> forall i :: 0 <= i < n ==> f[i] != '.'
    decreases n
  {
    if n == 0 then None
    else if f[n - 1] == '.' then Some(n - 1)
    else DotBefore(f, n - 1)
  }

  /** The length of `p.extension()`: from the last dot of the file name to
      its end, and nothing for the names "." and "..". */
  function ExtensionLength(p: string): (n: nat)
    ensures n <= |p| - FilenameStart(p)
  {
    var f := p[FilenameStart(p)..];
    if f == "." || f == ".." then 0
    else match LastDot(f)
      case None => 0
      case Some(i) => |f| - i
  }

  function Extension(p: string): string {
    p[|p| - ExtensionLength(p)..]
  }

  /** `p.replace_extension(ext)`: the extension is removed, then `ext` is
      appended, with a dot put in front when `ext` lacks one. */
  function ReplaceExtension(p: string, ext: string): string {
    var stem := p[..|p| - ExtensionLength(p)];
    if ext == "" then stem
    else if ext[0] == '.' then stem + ext
    else stem + "." + ext
  }

  /** The three properties of `FilenameStart` pin it down. */
  lemma FilenameStartUnique(p: string, k: nat)
    requires k <= |p|
    requires k == 0 || p[k - 1] == Separator
    requires forall i :: k <= i < |p| ==> p[i] != Separator
    ensures FilenameStart(p) == k
  {
    SeparatorBeforeUnique(p, |p|, k);
  }

  lemma {:induction false} SeparatorBeforeUnique(p: string, n: nat, k: nat)
    requires k <= n <= |p|
    requires k == 0 || p[k - 1] == Separator
    requires forall i :: k <= i < n ==> p[i] != Separator
    ensures SeparatorBefore(p, n) == k
    decreases n
  {
    if n > k {
      SeparatorBeforeUnique(p, n - 1, k);
    }
  }

  /** Replacing the extension by a separator-free one keeps the directory
      part and the stem, and the new extension is exactly the one given.
      This is the "stem.*" pattern from which a sharded dataset is globbed. */
  lemma {:induction false} ReplaceExtensionWildcard(p: string)
    ensures var r := ReplaceExtension(p, ".*");
      && FilenameStart(r) == FilenameStart(p)
      && r[..|r| - 2] == p[..|p| - ExtensionLength(p)]
      && Extension(r) == ".*"
  {
    var r := ReplaceExtension(p, ".*");
    var k := FilenameStart(p);
    var stem := p[..|p| - ExtensionLength(p)];
    assert r == stem + ".*";
    assert forall i :: k <= i < |r| ==> r[i] != Separator by {
      forall i | k <= i < |r| ensures r[i] != Separator {
        if i < |stem| {
          assert r[i] == p[i];
        }
      }
    }
    assert k == 0 || r[k - 1] == p[k - 1];
    FilenameStartUnique(r, k);
    var f := r[k..];
    assert f[|f| - 1] == '*';
    assert f != "." && f != "..";
    assert f[|f| - 2] == '.';
    assert LastDot(f) == DotBefore(f, |f| - 1) == Some(|f| - 2);
  }

  /** A non-empty path appended after a separator, or to nothing, keeps its
      last element: the file name starts where it started in `b`. */
  lemma {:induction false} FilenameAfterSeparator(a: string, b: string)
    requires b != ""
    requires a == "" || a[|a| - 1] == Separator || b[0] == Separator
    ensures FilenameStart(a + b) == |a| + FilenameStart(b)
    ensures ExtensionLength(a + b) == ExtensionLength(b)
  {
    var ab, k := a + b, |a| + FilenameStart(b);
    NoSeparatorAfter(a, b);
    if FilenameStart(b) == 0 {
      assert b[0] != Separator;
    } else {
      assert ab[k - 1] == b[FilenameStart(b) - 1];
    }
    FilenameStartUnique(ab, k);
    assert ab[k..] == b[FilenameStart(b)..];
  }

  /** The last element of `b` stays separator-free behind any `a`. */
  lemma {:induction false} NoSeparatorAfter(a: string, b: string)
    ensures forall i :: |a| + FilenameStart(b) <= i < |a + b| ==> (a + b)[i] != Separator
  {
    forall i | |a| + FilenameStart(b) <= i < |a + b| ensures (a + b)[i] != Separator {
      assert (a + b)[i] == b[i - |a|];
    }
  }

  /** `base /= p` for a non-empty `p` has the extension of `p`. */
  lemma {:induction false} JoinKeepsExtension(base: string, p: string)
    requires p != ""
    ensures ExtensionLength(Join(base, p)) == ExtensionLength(p)
  {
    if p[0] != Separator && base != "" && base[|base| - 1] != Separator {
      assert Join(base, p) == (base + [Separator]) + p;
      FilenameAfterSeparator(base + [Separator], p);
    } else {
      FilenameAfterSeparator(base, p);
    }
  }

  /** Cutting the tail off a non-empty `p` before joining gives the same
      junction: `base /= p` is `base /= p[..n]` followed by the rest of `p`. */
  lemma {:induction false} JoinPrefix(base: string, p: string, n: nat)
    requires 0 < n <= |p|
    ensures Join(base, p) == Join(base, p[..n]) + p[n..]
  {
    assert p[..n][0] == p[0];
    assert p == p[..n] + p[n..];
    if p[0] != Separator && base != "" && base[|base| - 1] != Separator {
      assert Join(base, p) == base + [Separator] + (p[..n] + p[n..]);
    } else {
      assert Join(base, p) == base + (p[..n] + p[n..]);
    }
  }
}

=== FILE: decimal.dfy ===
/** Decimal rendering of integers, as `std::ostream << int` writes them.
    Used to echo an unrecognised connection type code in its warning. */
module Decimal {
  import opened Optional

  predicate IsDigit(c: char) {
    '0' <= c <= '9'
  }

  predicate AllDigits(s: string) {
    forall i :: 0 <= i < |s| ==> IsDigit(s[i])
  }

  function DigitValue(c: char): int {
    c as int - '0' as int
  }

  function DigitChar(d: nat): (c: char)
    requires d < 10
    ensures IsDigit(c) && DigitValue(c) == d
  {
    ('0' as int + d) as char
  }

  /** The digits of `n`, most significant first, without leading zeros. */
  function NatToString(n: nat): (s: string)
    ensures 1 <= |s|
    ensures AllDigits(s)
    ensures s[0] == '0' ==> n == 0 && |s| == 1
    decreases n
  {
    if n < 10 then [DigitChar(n)] else NatToString(n / 10) + [DigitChar(n % 10)]
  }

  /** A leading minus sign for negative values, then the digits of the magnitude. */
  function IntToString(n: int): (s: string)
    ensures 1 <= |s|
    ensures s[0] == '-' <==> n < 0
  {
    if n < 0 then "-" + NatToString(-n) else NatToString(n)
  }

  /** The value of a string of digits read most significant first. */
  function ValueOf(s: string): int {
    if |s| == 0 then 0 else 10 * ValueOf(s[..|s| - 1]) + DigitValue(s[|s| - 1])
  }

  /** Reads back an optionally signed decimal number; the reference for
      `IntToString`. */
  function ParseInt(s: string): Option<int> {
    if 2 <= |s| && s[0] == '-' && AllDigits(s[1..]) then Some(-ValueOf(s[1..]))
    else if 1 <= |s| && AllDigits(s) then Some(ValueOf(s))
    else None
  }

  lemma {:induction false} ValueOfNatToString(n: nat)
    ensures ValueOf(NatToString(n)) == n
    decreases n
  {
    if n >= 10 {
      var prefix := NatToString(n / 10);
      var s := prefix + [DigitChar(n % 10)];
      assert NatToString(n) == s;
      assert s[..|s| - 1] == prefix;
      ValueOfNatToString(n / 10);
    }
  }

  /** Every rendered integer reads back as itself. */
  lemma {:induction false} IntToStringRoundTrip(n: int)
    ensures ParseInt(IntToString(n)) == Some(n)
  {
    if n < 0 {
      var digits := NatToString(-n);
      ValueOfNatToString(-n);
      ParseSigned(digits, -n);
      assert IntToString(n) == "-" + digits;
    } else {
      var digits := NatToString(n);
      ValueOfNatToString(n);
      ParseUnsigned(digits, n);
      assert IntToString(n) == digits;
    }
  }

  lemma {:induction false} ParseSigned(digits: string, v: int)
    requires 1 <= |digits| && AllDigits(digits) && ValueOf(digits) == v
    ensures ParseInt("-" + digits) == Some(-v)
  {
    assert ("-" + digits)[1..] == digits;
  }

  lemma {:induction false} ParseUnsigned(digits: string, v: nat)
    requires 1 <= |digits| && AllDigits(digits) && ValueOf(digits) == v
    ensures ParseInt(digits) == Some(v)
  {
    assert IsDigit(digits[0]);
  }
}

=== FILE: inventory.dfy ===
/** The dependency ledger and the review log a traversal accumulates, and
    the left fold the traversal is built from. */
module Inventory {

  /** The state of a `Mapfile`: the ordered warnings, the review flag and the
      ledger of required files. The source keeps the ledger as an unordered
      map from canonical path to reference count; here it is a multiset whose
      multiplicity of a path is that count. */
  datatype State = State(warnings: seq<string>, needsManualReview: bool, requiredFiles: multiset<string>)

  /** The state the constructor starts from. */
  const Initial: State := State([], false, multiset{})

  /** The review flag is set exactly when some warning was recorded. */
  predicate Valid(s: State) {
    s.needsManualReview <==> |s.warnings| > 0
  }

  /** `add_warning`: append the message and raise the flag. */
  function AddWarning(s: State, w: string): (r: State)
    ensures r.warnings == s.warnings + [w]
    ensures r.requiredFiles == s.requiredFiles
    ensures Valid(r)
    ensures Appends(s, r, Report([w], multiset{}))
  {
    s.(needsManualReview := true, warnings := s.warnings + [w])
  }

  /** `required_files[path]++`: one more reference to `path`, inserted at 1
      when it was absent; every other count stays. */
  function Record(s: State, path: string): (r: State)
    ensures r.requiredFiles[path] == s.requiredFiles[path] + 1
    ensures forall k :: k != path ==> r.requiredFiles[k] == s.requiredFiles[k]
    ensures r.warnings == s.warnings && r.needsManualReview == s.needsManualReview
    ensures Appends(s, r, Report([], multiset{path}))
  {
    s.(requiredFiles := s.requiredFiles + multiset{path})
  }

  /** What a piece of the walk adds to the state, stated without the state:
      the warnings it appends, in order, and the references it counts. */
  datatype Report = Report(warnings: seq<string>, files: multiset<string>)

  const NoReport: Report := Report([], multiset{})

  /** One report followed by another. */
  function Then(a: Report, b: Report): Report {
    Report(a.warnings + b.warnings, a.files + b.files)
  }

  /** `r` is `s` with exactly the report's warnings appended and its
      references counted; the review flag is raised exactly when the report
      holds a warning. */
  predicate Appends(s: State, r: State, rep: Report) {
    && r.warnings == s.warnings + rep.warnings
    && r.requiredFiles == s.requiredFiles + rep.files
    && r.needsManualReview == (s.needsManualReview || |rep.warnings| > 0)
  }

  lemma AppendsThen(s: State, s1: State, s2: State, a: Report, b: Report)
    requires Appends(s, s1, a) && Appends(s1, s2, b)
    ensures Appends(s, s2, Then(a, b))
  {
    assert s.warnings + a.warnings + b.warnings == s.warnings + (a.warnings + b.warnings);
  }

  /** A report that ends with the warnings `tail` leaves them as the last
      warnings of the state. */
  lemma AppendsEndsWith(s: State, r: State, a: Report, tail: seq<string>)
    requires Appends(s, r, Then(a, Report(tail, multiset{})))
    ensures |s.warnings| + |tail| <= |r.warnings|
    ensures r.warnings[|r.warnings| - |tail|..] == tail
  {
    var w := s.warnings + a.warnings;
    assert r.warnings == w + tail;
    assert r.warnings[|w|..] == tail;
  }

  /** How many references and warnings a report adds. */
  function Size(rep: Report): nat {
    |rep.files| + |rep.warnings|
  }

  lemma SizeThen(a: Report, b: Report)
    ensures Size(Then(a, b)) == Size(a) + Size(b)
  {
  }

  lemma AppendsWeight(s: State, r: State, rep: Report)
    requires Appends(s, r, rep)
    ensures Weight(r) == Weight(s) + Size(rep)
  {
  }

  /** The reports of the elements of `xs`, one after the other. */
  function Collect<T>(xs: seq<T>, f: T -> Report): Report
    decreases |xs|
  {
    if |xs| == 0 then NoReport else Then(f(xs[0]), Collect(xs[1..], f))
  }

  /** The ledger as the source's map: one entry per referenced path, with a
      count of at least 1. */
  function Entries(s: State): (e: map<string, nat>)
    ensures forall k :: k in e <==> s.requiredFiles[k] > 0
    ensures forall k :: k in e ==> e[k] == s.requiredFiles[k] >= 1
  {
    map k | k in s.requiredFiles :: s.requiredFiles[k]
  }

  /** Total references recorded plus warnings recorded. */
  function Weight(s: State): nat {
    |s.requiredFiles| + |s.warnings|
  }

  /** `b` is `a` with warnings appended, counts increased and the flag kept. */
  predicate Extends(a: State, b: State) {
    && a.warnings <= b.warnings
    && a.requiredFiles <= b.requiredFiles
    && (a.needsManualReview ==> b.needsManualReview)
  }

  /** `b` extends `a` by exactly `n` references or warnings, and keeps the
      review flag in step with the warnings. */
  predicate Grows(a: State, b: State, n: nat) {
    Extends(a, b) && Weight(b) == Weight(a) + n && (Valid(a) ==> Valid(b))
  }

  lemma GrowsTrans(a: State, b: State, c: State, m: nat, n: nat)
    requires Grows(a, b, m) && Grows(b, c, n)
    ensures Grows(a, c, m + n)
  {
  }

  /** Processes `xs` from first to last, as the source's `for` loops do. */
  function Fold<T>(s: State, xs: seq<T>, step: (State, T) -> State): State
    decreases |xs|
  {
    if |xs| == 0 then s else Fold(step(s, xs[0]), xs[1..], step)
  }

  function Sum<T>(xs: seq<T>, w: T -> nat): nat
    decreases |xs|
  {
    if |xs| == 0 then 0 else w(xs[0]) + Sum(xs[1..], w)
  }

  /** A fold of steps that each grow the state by `w` of their element grows
      it by the sum of `w` over the sequence. */
  lemma {:induction false} FoldGrows<T>(s: State, xs: seq<T>, step: (State, T) -> State, w: T -> nat)
    requires forall a, x :: x in xs ==> Grows(a, step(a, x), w(x))
    ensures Grows(s, Fold(s, xs, step), Sum(xs, w))
    decreases |xs|
  {
    if |xs| > 0 {
      var s1 := step(s, xs[0]);
      assert xs[0] in xs;
      forall a, x | x in xs[1..] ensures Grows(a, step(a, x), w(x)) {
        assert x in xs;
      }
      FoldGrows(s1, xs[1..], step, w);
      GrowsTrans(s, s1, Fold(s1, xs[1..], step), w(xs[0]), Sum(xs[1..], w));
    }
  }

  /** A fold of steps that each add the report of their element adds the
      reports of all elements, in order. */
  lemma {:induction false} FoldAppends<T>(s: State, xs: seq<T>, step: (State, T) -> State, f: T -> Report)
    requires forall a, x :: x in xs ==> Appends(a, step(a, x), f(x))
    ensures Appends(s, Fold(s, xs, step), Collect(xs, f))
    decreases |xs|
  {
    if |xs| == 0 {
      assert s.warnings + [] == s.warnings;
    } else {
      var s1 := step(s, xs[0]);
      assert xs[0] in xs;
      forall a, x | x in xs[1..] ensures Appends(a, step(a, x), f(x)) {
        assert x in xs;
      }
      FoldAppends(s1, xs[1..], step, f);
      AppendsThen(s, s1, Fold(s1, xs[1..], step), f(xs[0]), Collect(xs[1..], f));
    }
  }

  /** A fold of steps that leave the state alone leaves it alone. */
  lemma {:induction false} FoldIdle<T>(s: State, xs: seq<T>, step: (State, T) -> State)
    requires forall a, x :: x in xs ==> step(a, x) == a
    ensures Fold(s, xs, step) == s
    decreases |xs|
  {
    if |xs| > 0 {
      assert xs[0] in xs;
      forall a, x | x in xs[1..] ensures step(a, x) == a {
        assert x in xs;
      }
      FoldIdle(step(s, xs[0]), xs[1..], step);
    }
  }

  /** Folding over one more element applies one more step at the end. */
  lemma {:induction false} FoldSnoc<T>(s: State, xs: seq<T>, x: T, step: (State, T) -> State)
    ensures Fold(s, xs + [x], step) == step(Fold(s, xs, step), x)
    decreases |xs|
  {
    if |xs| > 0 {
      assert (xs + [x])[1..] == xs[1..] + [x];
      FoldSnoc(step(s, xs[0]), xs[1..], x, step);
    } else {
      assert (xs + [x])[1..] == [];
    }
  }
}

=== FILE: map_model.dfy ===
/** The parsed map definition (`mapObj` and the objects it owns), as far as
    the inventory reads it. The parser hands it over read-only. A NULL
    string field is `None`. */
module MapModel {
  import opened Optional

  /** MapServer's symbol types; only TrueType and Pixmap carry a file. */
  datatype SymbolKind = Simple | Vector | Ellipse | Pixmap | TrueType | Hatch | Svg

  /** One entry of the symbol set. A NULL entry of `symbolset.symbol[]`
      behaves like a symbol without a name: the scan skips both. */
  datatype Symbol = Symbol(
    name: Option<string>,
    kind: SymbolKind,
    font: Option<string>,
    fullPixmapPath: Option<string>)

  datatype Style = Style(symbolName: Option<string>)

  datatype Label = Label(font: Option<string>)

  /** A layer class. A NULL `_class[c]` behaves like a class with no
      template, styles or labels. */
  datatype ClassObj = ClassObj(template: Option<string>, styles: seq<Style>, labels: seq<Label>)

  /** `connectionType` is MapServer's raw enum value; it is classified by
      `Classify`, and an unrecognised value is echoed in its warning. */
  datatype Layer = Layer(
    name: Option<string>,
    connectionType: int,
    data: Option<string>,
    tileIndex: Option<string>,
    header: Option<string>,
    footer: Option<string>,
    template: Option<string>,
    styleItem: Option<string>,
    pluginLibrary: Option<string>,
    classes: seq<ClassObj>)

  datatype OutputFormat = OutputFormat(name: string, driver: string, options: seq<string>)

  /** The font set file and its table from font name to font file. */
  datatype Fontset = Fontset(filename: Option<string>, fonts: map<string, string>)

  datatype Symbolset = Symbolset(filename: Option<string>, symbols: seq<Symbol>)

  datatype Web = Web(
    header: Option<string>,
    footer: Option<string>,
    empty: Option<string>,
    error: Option<string>,
    template: Option<string>,
    minTemplate: Option<string>,
    maxTemplate: Option<string>)

  /** `mappath` is always set by the parser (the directory of the map file). */
  datatype MapObj = MapObj(
    mappath: string,
    shapepath: Option<string>,
    outputFormats: seq<OutputFormat>,
    fontset: Fontset,
    symbolset: Symbolset,
    web: Web,
    layers: seq<Layer>)

  /** The connection types the dispatch distinguishes, plus every other raw value. */
  datatype Connection =
    | Inline | Shapefile | TiledShapefile | Ogr | PostGis | Wms | OracleSpatial
    | Wfs | Graticule | MySql | Raster | Plugin | Union | UvRaster | Contour
    | Unknown(code: int)

  /** MapServer's enum value of each connection type (MS_INLINE = 0 ...
      MS_CONTOUR = 16; 3 and 5 are unused values the dispatch does not name). */
  function Code(c: Connection): int {
    match c
    case Inline => 0
    case Shapefile => 1
    case TiledShapefile => 2
    case Ogr => 4
    case PostGis => 6
    case Wms => 7
    case OracleSpatial => 8
    case Wfs => 9
    case Graticule => 10
    case MySql => 11
    case Raster => 12
    case Plugin => 13
    case Union => 14
    case UvRaster => 15
    case Contour => 16
    case Unknown(n) => n
  }

  predicate IsKnownCode(n: int) {
    0 <= n <= 2 || n == 4 || 6 <= n <= 16
  }

  /** A connection value as `Classify` can produce it: `Unknown` only for
      codes the dispatch does not name. */
  predicate IsClassified(c: Connection) {
    c.Unknown? ==> !IsKnownCode(c.code)
  }

  /** The `switch (layer->connectiontype)` of the layer loop: which case a raw
      value selects. Nothing is lost: the raw value is recoverable. */
  function Classify(code: int): (c: Connection)
    ensures Code(c) == code
    ensures c.Unknown? <==> !IsKnownCode(code)
  {
    if code == 0 then Inline
    else if code == 1 then Shapefile
    else if code == 2 then TiledShapefile
    else if code == 4 then Ogr
    else if code == 6 then PostGis
    else if code == 7 then Wms
    else if code == 8 then OracleSpatial
    else if code == 9 then Wfs
    else if code == 10 then Graticule
    else if code == 11 then MySql
    else if code == 12 then Raster
    else if code == 13 then Plugin
    else if code == 14 then Union
    else if code == 15 then UvRaster
    else if code == 16 then Contour
    else Unknown(code)
  }

  /** Classifying the enum value of a connection type gives it back. */
  lemma ClassifyCode(c: Connection)
    requires IsClassified(c)
    ensures Classify(Code(c)) == c
  {
  }

  /** The thirteen types that can only be flagged for review. */
  predicate NeedsReviewTag(c: Connection) {
    !c.Inline? && !c.Shapefile? && !c.Unknown?
  }

  /** The tag each connection type is named by in its warning. */
  function TagName(c: Connection): string {
    match c
    case Inline => "INLINE"
    case Shapefile => "SHAPEFILE"
    case TiledShapefile => "TILED_SHAPEFILE"
    case Ogr => "OGR"
    case PostGis => "POSTGIS"
    case Wms => "WMS"
    case OracleSpatial => "ORACLESPATIAL"
    case Wfs => "WFS"
    case Graticule => "GRATICULE"
    case MySql => "MYSQL"
    case Raster => "RASTER"
    case Plugin => "PLUGIN"
    case Union => "UNION"
    case UvRaster => "UVRASTER"
    case Contour => "CONTOUR"
    case Unknown(_) => "UNKNOWN"
  }

  /** Distinct review-only types are named by distinct tags, so each warning
      identifies its connection type. */
  lemma TagNameInjective(a: Connection, b: Connection)
    requires NeedsReviewTag(a) && NeedsReviewTag(b)
    ensures TagName(a) == TagName(b) ==> a == b
  {
  }
}

=== FILE: optional.dfy ===
/** The optional value used for every nullable field of the parsed map and
    for the optional environment settings. */
module Optional {

  /** A C string pointer that may be NULL, or a setting that may be unset. */
  datatype Option<+T> = None | Some(value: T)
}

=== FILE: properties.dfy ===
/** Behavioural properties of the walk, one construct at a time. */
module Properties {
  import opened Optional
  import opened Decimal
  import opened BoostPath
  import opened MapModel
  import opened Inventory
  import opened Resolver
  import opened Walker
  import opened Accounting

  // ---- ledger ----------------------------------------------------------------

  /** Referencing the same existing file twice gives one ledger entry whose
      count went up by two, not two entries. */
  lemma {:induction false} SameFileTwiceOneEntry(c: Ctx, s: State, p: string, kind1: string, kind2: string)
    requires !FoundViaDefault(c, p) && Exists(c, p)
    ensures var r := AddFile(c, AddFile(c, s, p, kind1), p, kind2);
      && Entries(r).Keys == Entries(s).Keys + {Canonical(c, p)}
      && Entries(r)[Canonical(c, p)] == s.requiredFiles[Canonical(c, p)] + 2
      && r.warnings == s.warnings
  {
    var x := Canonical(c, p);
    var r := AddFile(c, AddFile(c, s, p, kind1), p, kind2);
    assert r.requiredFiles == s.requiredFiles + multiset{x} + multiset{x};
    assert forall k :: k != x ==> r.requiredFiles[k] == s.requiredFiles[k];
  }

  /** The walk never lowers a count, never removes or rewrites a warning,
      and never clears the review flag. */
  lemma WalkOnlyAppends(env: Env, m: MapObj, s: State, k: string)
    ensures var r := ProcessMapfile(env, m, s);
      && s.requiredFiles[k] <= r.requiredFiles[k]
      && s.warnings <= r.warnings
      && (s.needsManualReview ==> r.needsManualReview)
  {
    ProcessMapfileGrows(env, m, s);
  }

  // ---- symbols ---------------------------------------------------------------

  /** The "not found" warning is per reference: two styles naming the same
      missing symbol give two warnings. */
  lemma MissingSymbolWarnsPerStyle(c: Ctx, symbols: seq<Symbol>, s: State, name: string)
    requires !Named(symbols, name)
    ensures var r := Fold(s, [Style(Some(name)), Style(Some(name))], StyleStep(c, symbols));
      && r.requiredFiles == s.requiredFiles
      && r.warnings == s.warnings + ["Symbol " + name + " NOT FOUND", "Symbol " + name + " NOT FOUND"]
  {
    var w := "Symbol " + name + " NOT FOUND";
    var styles := [Style(Some(name)), Style(Some(name))];
    var s1 := StyleStep(c, symbols)(s, styles[0]);
    var s2 := StyleStep(c, symbols)(s1, styles[1]);
    assert styles[1..][0] == styles[1] && styles[1..][1..] == [];
    assert Fold(s1, styles[1..], StyleStep(c, symbols)) == s2;
    assert Fold(s, styles, StyleStep(c, symbols)) == s2;
    assert s2.warnings == s.warnings + [w] + [w];
  }

  /** A same-named symbol whose file resolves from the walk's directory:
      a TrueType font the font set names, or a pixmap's full path. */
  predicate SymbolResolves(c: Ctx, sym: Symbol) {
    && (sym.kind == TrueType && sym.font.Some? ==>
          sym.font.value in c.fonts && !FoundViaDefault(c, c.fonts[sym.font.value]) && Exists(c, c.fonts[sym.font.value]))
    && (sym.kind == Pixmap && sym.fullPixmapPath.Some? ==>
          !FoundViaDefault(c, sym.fullPixmapPath.value) && Exists(c, sym.fullPixmapPath.value))
  }

  /** The file one symbol makes a lookup of `name` record when it resolves:
      the font set's file for a TrueType symbol, the full pixmap path for a
      Pixmap symbol, canonicalised; nothing for any other symbol. */
  function SymbolFile(c: Ctx, name: string, sym: Symbol): multiset<string> {
    if sym.name != Some(name) then multiset{}
    else if sym.kind == TrueType && sym.font.Some? && sym.font.value in c.fonts then multiset{Canonical(c, c.fonts[sym.font.value])}
    else if sym.kind == Pixmap && sym.fullPixmapPath.Some? then multiset{Canonical(c, sym.fullPixmapPath.value)}
    else multiset{}
  }

  /** The files of all symbols, with multiplicity. */
  function SymbolFiles(c: Ctx, symbols: seq<Symbol>, name: string): multiset<string>
    decreases |symbols|
  {
    if |symbols| == 0 then multiset{} else SymbolFile(c, name, symbols[0]) + SymbolFiles(c, symbols[1..], name)
  }

  lemma SymbolFound(c: Ctx, name: string, sym: Symbol)
    requires sym.name == Some(name) ==> SymbolResolves(c, sym)
    ensures SymbolReport(c, name, sym) == Report([], SymbolFile(c, name, sym))
  {
  }

  lemma {:induction false} ScanAllFound(c: Ctx, symbols: seq<Symbol>, name: string)
    requires forall i :: 0 <= i < |symbols| && symbols[i].name == Some(name) ==> SymbolResolves(c, symbols[i])
    ensures Collect(symbols, SymbolReports(c, name)) == Report([], SymbolFiles(c, symbols, name))
    decreases |symbols|
  {
    if |symbols| > 0 {
      var rest := symbols[1..];
      forall i | 0 <= i < |rest| && rest[i].name == Some(name) ensures SymbolResolves(c, rest[i]) {
        assert rest[i] == symbols[i + 1];
      }
      ScanAllFound(c, rest, name);
      SymbolFound(c, name, symbols[0]);
      assert SymbolReports(c, name)(symbols[0]) == Report([], SymbolFile(c, name, symbols[0]));
      assert Collect(symbols, SymbolReports(c, name))
        == Then(Report([], SymbolFile(c, name, symbols[0])), Report([], SymbolFiles(c, rest, name)));
    }
  }

  /** When every same-named symbol's font or pixmap resolves, a lookup warns
      about nothing and records exactly those files: TrueType symbols go
      through the font set, Pixmap symbols record their full pixmap path. */
  lemma AddSymbolAllFound(c: Ctx, symbols: seq<Symbol>, s: State, name: string)
    requires Named(symbols, name)
    requires forall i :: 0 <= i < |symbols| && symbols[i].name == Some(name) ==> SymbolResolves(c, symbols[i])
    ensures var r := AddSymbol(c, symbols, s, name);
      r.warnings == s.warnings && r.requiredFiles == s.requiredFiles + SymbolFiles(c, symbols, name)
  {
    ScanAllFound(c, symbols, name);
  }

  /** A TrueType symbol whose font the font set lacks yields the font set
      warning, not a "Symbol NOT FOUND". */
  lemma TrueTypeFontMissing(c: Ctx, s: State, name: string, sym: Symbol)
    requires sym.name == Some(name) && sym.kind == TrueType && sym.font.Some? && sym.font.value !in c.fonts
    ensures var r := AddSymbol(c, [sym], s, name);
      r.requiredFiles == s.requiredFiles && r.warnings == s.warnings + ["FONT " + sym.font.value + " not found in fontset"]
  {
    SingleSymbolReport(c, name, sym);
  }

  /** A lookup in a one-symbol set that holds the name reports what that
      symbol contributes. */
  lemma SingleSymbolReport(c: Ctx, name: string, sym: Symbol)
    requires sym.name == Some(name)
    ensures AddSymbolReport(c, [sym], name) == SymbolReport(c, name, sym)
  {
    assert [sym][0].name == Some(name);
    assert [sym][1..] == [];
    var rep := SymbolReport(c, name, sym);
    assert Collect([sym], SymbolReports(c, name)) == Then(rep, NoReport);
    assert rep.warnings + [] == rep.warnings;
  }

  /** A Pixmap symbol's full path is resolved under the kind "image": it is
      recorded when it exists, and reported as a missing image otherwise. */
  lemma PixmapResolvedAsImage(c: Ctx, s: State, name: string, sym: Symbol)
    requires sym.name == Some(name) && sym.kind == Pixmap && sym.fullPixmapPath.Some?
    requires !FoundViaDefault(c, sym.fullPixmapPath.value)
    ensures var r, p := AddSymbol(c, [sym], s, name), sym.fullPixmapPath.value;
      && (Exists(c, p) ==> r.warnings == s.warnings && r.requiredFiles == s.requiredFiles + multiset{Canonical(c, p)})
      && (!Exists(c, p) ==>
            r.requiredFiles == s.requiredFiles && r.warnings == s.warnings + ["image: " + Anchored(c.mappath, p) + " not found!"])
  {
    var p := sym.fullPixmapPath.value;
    SingleSymbolReport(c, name, sym);
    assert NotFound("image", Anchored(c.mappath, p)) == "image: " + Anchored(c.mappath, p) + " not found!";
  }

  // ---- output formats --------------------------------------------------------

  /** An output format is only ever flagged, never recorded: a TEMPLATE
      format gets one "OUTPUTFORMAT: <name> <driver> <option>" warning per
      FILE= option, in option order; any other driver changes nothing. */
  lemma OutputFormatFlagsOnly(s: State, f: OutputFormat)
    ensures f.driver != TemplateDriver ==> CheckOutputFormat(s, f) == s
    ensures f.driver == TemplateDriver ==>
      && CheckOutputFormat(s, f).requiredFiles == s.requiredFiles
      && CheckOutputFormat(s, f).warnings == s.warnings + FlaggedOptions(f, f.options)
  {
  }

  // ---- connection types ------------------------------------------------------

  const UnknownPrefix: string := "CONNECTIONTYPE unknown ("
  const UnknownSuffix: string := "), requires manual review."

  /** The warning for an unrecognised connection type quotes the raw value,
      and the value can be read back from it. */
  lemma UnknownConnectionEchoesCode(code: int)
    requires !IsKnownCode(code)
    ensures var w := ConnectionWarning(Classify(code));
      && w == UnknownPrefix + IntToString(code) + UnknownSuffix
      && ParseInt(w[|UnknownPrefix|..|w| - |UnknownSuffix|]) == Some(code)
  {
    var w := ConnectionWarning(Classify(code));
    assert w[|UnknownPrefix|..|w| - |UnknownSuffix|] == IntToString(code);
    IntToStringRoundTrip(code);
  }

  lemma AffixesCancel(prefix: string, x: string, y: string, suffix: string)
    ensures prefix + x + suffix == prefix + y + suffix ==> x == y
  {
    var wx, wy := prefix + x + suffix, prefix + y + suffix;
    assert wx[|prefix|..|wx| - |suffix|] == x;
    assert wy[|prefix|..|wy| - |suffix|] == y;
  }

  /** Distinct connection types that are flagged get distinct warnings, so
      the warning tells which type (or which raw value) the layer had. */
  lemma ConnectionWarningsDistinct(a: int, b: int)
    requires var ca := Classify(a); !ca.Inline? && !ca.Shapefile?
    requires var cb := Classify(b); !cb.Inline? && !cb.Shapefile?
    requires a != b
    ensures ConnectionWarning(Classify(a)) != ConnectionWarning(Classify(b))
  {
    var ca, cb := Classify(a), Classify(b);
    var wa, wb := ConnectionWarning(ca), ConnectionWarning(cb);
    if ca.Unknown? && cb.Unknown? {
      UnknownConnectionEchoesCode(a);
      UnknownConnectionEchoesCode(b);
    } else if !ca.Unknown? && !cb.Unknown? {
      TagNameInjective(ca, cb);
      AffixesCancel("CONNECTIONTYPE ", TagName(ca), TagName(cb), " requires manual review");
    } else {
      assert wa[15] != wb[15];
    }
  }

  /** A WMS layer (or any other review-only type) gets exactly its one
      warning from the dispatch and no ledger entry. */
  lemma ReviewOnlyConnection(c: Ctx, shapepath: Option<string>, s: State, l: Layer)
    requires NeedsReviewTag(Classify(l.connectionType))
    ensures var r := CheckConnection(c, shapepath, s, l);
      && r.requiredFiles == s.requiredFiles
      && r.warnings == s.warnings + ["CONNECTIONTYPE " + TagName(Classify(l.connectionType)) + " requires manual review"]
  {
  }

  /** The canonical paths of a sequence of references, with multiplicity. */
  function Canonicals(c: Ctx, paths: seq<string>): multiset<string>
    decreases |paths|
  {
    if |paths| == 0 then multiset{} else multiset{Canonical(c, paths[0])} + Canonicals(c, paths[1..])
  }

  /** Resolving references that all exist records each canonical path once
      more and warns about nothing. */
  lemma {:induction false} AddFilesAllFound(c: Ctx, s: State, paths: seq<string>, kind: string)
    requires forall p :: p in paths ==> !FoundViaDefault(c, p) && Exists(c, p)
    ensures var r := Fold(s, paths, AddFileStep(c, kind));
      r.warnings == s.warnings && r.requiredFiles == s.requiredFiles + Canonicals(c, paths)
    decreases |paths|
  {
    if |paths| > 0 {
      assert paths[0] in paths;
      var s1 := AddFileStep(c, kind)(s, paths[0]);
      forall p | p in paths[1..] ensures !FoundViaDefault(c, p) && Exists(c, p) {
        assert p in paths;
      }
      AddFilesAllFound(c, s1, paths[1..], kind);
    }
  }

  /** A shapefile layer's data whose glob matches all exist: one reference
      per match and no warning. */
  lemma ShapefileDataAllFound(c: Ctx, shapepath: Option<string>, s: State, l: Layer)
    requires Classify(l.connectionType).Shapefile? && l.tileIndex.None? && l.data.Some?
    requires forall p :: p in Matches(c, shapepath, l.data.value) ==> !FoundViaDefault(c, p) && Exists(c, p)
    ensures var r := CheckConnection(c, shapepath, s, l);
      && r.warnings == s.warnings
      && r.requiredFiles == s.requiredFiles + Canonicals(c, Matches(c, shapepath, l.data.value))
  {
    AddFilesAllFound(c, s, Matches(c, shapepath, l.data.value), "layer.data");
  }

  /** A shapefile layer's tile index whose glob matches all exist: the
      review warning and one reference per match, resolved as tile index files. */
  lemma ShapefileTileIndexAllFound(c: Ctx, shapepath: Option<string>, s: State, l: Layer)
    requires Classify(l.connectionType).Shapefile? && l.tileIndex.Some?
    requires forall p :: p in Matches(c, shapepath, l.tileIndex.value) ==> !FoundViaDefault(c, p) && Exists(c, p)
    ensures var r := CheckConnection(c, shapepath, s, l);
      && r.warnings == s.warnings + ["TILEINDEX needs manual review"]
      && r.requiredFiles == s.requiredFiles + Canonicals(c, Matches(c, shapepath, l.tileIndex.value))
  {
    AddFilesAllFound(c, AddWarning(s, "TILEINDEX needs manual review"), Matches(c, shapepath, l.tileIndex.value), "layer.tileindex");
  }

  /** The "not found" warnings of references under one kind, in order. */
  function NotFounds(c: Ctx, paths: seq<string>, kind: string): seq<string>
    decreases |paths|
  {
    if |paths| == 0 then [] else [NotFound(kind, Anchored(c.mappath, paths[0]))] + NotFounds(c, paths[1..], kind)
  }

  /** Resolving references none of which exists records nothing and warns
      once per reference, under the given kind. */
  lemma {:induction false} AddFilesAllMissing(c: Ctx, s: State, paths: seq<string>, kind: string)
    requires forall p :: p in paths ==> !FoundViaDefault(c, p) && !Exists(c, p)
    ensures var r := Fold(s, paths, AddFileStep(c, kind));
      r.requiredFiles == s.requiredFiles && r.warnings == s.warnings + NotFounds(c, paths, kind)
  {
    FoldAppends(s, paths, AddFileStep(c, kind), FileReports(c, kind));
    MissingReports(c, paths, kind);
  }

  /** The reports of references none of which exists: one "not found"
      warning each, in order, and no reference. */
  lemma {:induction false} MissingReports(c: Ctx, paths: seq<string>, kind: string)
    requires forall p :: p in paths ==> !FoundViaDefault(c, p) && !Exists(c, p)
    ensures Collect(paths, FileReports(c, kind)) == Report(NotFounds(c, paths, kind), multiset{})
    decreases |paths|
  {
    if |paths| > 0 {
      assert paths[0] in paths;
      forall p | p in paths[1..] ensures !FoundViaDefault(c, p) && !Exists(c, p) {
        assert p in paths;
      }
      MissingReports(c, paths[1..], kind);
      assert FileReports(c, kind)(paths[0]) == Report([NotFound(kind, Anchored(c.mappath, paths[0]))], multiset{});
    }
  }

  /** Tile index matches that cannot be resolved are reported as
      "layer.tileindex" files, after the review warning. */
  lemma ShapefileTileIndexAllMissing(c: Ctx, shapepath: Option<string>, s: State, l: Layer)
    requires Classify(l.connectionType).Shapefile? && l.tileIndex.Some?
    requires forall p :: p in Matches(c, shapepath, l.tileIndex.value) ==> !FoundViaDefault(c, p) && !Exists(c, p)
    ensures var r := CheckConnection(c, shapepath, s, l);
      && r.requiredFiles == s.requiredFiles
      && r.warnings == s.warnings + ["TILEINDEX needs manual review"]
        + NotFounds(c, Matches(c, shapepath, l.tileIndex.value), "layer.tileindex")
  {
    AddFilesAllMissing(c, AddWarning(s, "TILEINDEX needs manual review"), Matches(c, shapepath, l.tileIndex.value), "layer.tileindex");
  }

  /** Data matches that cannot be resolved are reported as "layer.data" files. */
  lemma ShapefileDataAllMissing(c: Ctx, shapepath: Option<string>, s: State, l: Layer)
    requires Classify(l.connectionType).Shapefile? && l.tileIndex.None? && l.data.Some?
    requires forall p :: p in Matches(c, shapepath, l.data.value) ==> !FoundViaDefault(c, p) && !Exists(c, p)
    ensures var r := CheckConnection(c, shapepath, s, l);
      && r.requiredFiles == s.requiredFiles
      && r.warnings == s.warnings + NotFounds(c, Matches(c, shapepath, l.data.value), "layer.data")
  {
    AddFilesAllMissing(c, s, Matches(c, shapepath, l.data.value), "layer.data");
  }

  /** A glob with no match adds nothing: no reference and, for data, no
      warning; a tile index still gets its "TILEINDEX needs manual review". */
  lemma ShapefileEmptyGlob(c: Ctx, shapepath: Option<string>, s: State, l: Layer)
    requires Classify(l.connectionType).Shapefile?
    ensures l.tileIndex.Some? && Matches(c, shapepath, l.tileIndex.value) == [] ==>
      CheckConnection(c, shapepath, s, l) == AddWarning(s, "TILEINDEX needs manual review")
    ensures l.tileIndex.None? && l.data.Some? && Matches(c, shapepath, l.data.value) == [] ==>
      CheckConnection(c, shapepath, s, l) == s
  {
  }

  /** When a tile index is set, the layer's data plays no part. */
  lemma TileIndexTakesPrecedence(c: Ctx, shapepath: Option<string>, s: State, l: Layer, data: Option<string>)
    requires l.tileIndex.Some?
    ensures CheckConnection(c, shapepath, s, l) == CheckConnection(c, shapepath, s, l.(data := data))
  {
  }

  // ---- web block -------------------------------------------------------------

  /** The field is unset, or it resolves nowhere. */
  predicate Missing(c: Ctx, p: Option<string>) {
    p.Some? ==> !FoundViaDefault(c, p.value) && !Exists(c, p.value)
  }

  function MissingWarning(c: Ctx, p: Option<string>, kind: string): seq<string> {
    if p.Some? then [NotFound(kind, Anchored(c.mappath, p.value))] else []
  }

  lemma OptionalFileMissing(c: Ctx, s: State, p: Option<string>, kind: string)
    requires Missing(c, p)
    ensures OptionalFile(c, s, p, kind).requiredFiles == s.requiredFiles
    ensures OptionalFile(c, s, p, kind).warnings == s.warnings + MissingWarning(c, p, kind)
  {
  }

  /** When no web file resolves, each set field gets its own "not found"
      warning under its "web.<field>" label, in the order header, footer,
      empty, error, template, mintemplate, maxtemplate, and nothing is recorded. */
  lemma WebAllMissing(c: Ctx, s: State, w: Web)
    requires Missing(c, w.header) && Missing(c, w.footer) && Missing(c, w.empty) && Missing(c, w.error)
    requires Missing(c, w.template) && Missing(c, w.minTemplate) && Missing(c, w.maxTemplate)
    ensures var r := CheckWeb(c, s, w);
      && r.requiredFiles == s.requiredFiles
      && r.warnings == s.warnings
        + MissingWarning(c, w.header, "web.header") + MissingWarning(c, w.footer, "web.footer")
        + MissingWarning(c, w.empty, "web.empty") + MissingWarning(c, w.error, "web.error")
        + MissingWarning(c, w.template, "web.template") + MissingWarning(c, w.minTemplate, "web.mintemplate")
        + MissingWarning(c, w.maxTemplate, "web.maxtemplate")
  {
    var s1 := OptionalFile(c, s, w.header, "web.header");
    var s2 := OptionalFile(c, s1, w.footer, "web.footer");
    var s3 := OptionalFile(c, s2, w.empty, "web.empty");
    var s4 := OptionalFile(c, s3, w.error, "web.error");
    var s5 := OptionalFile(c, s4, w.template, "web.template");
    var s6 := OptionalFile(c, s5, w.minTemplate, "web.mintemplate");
    var s7 := OptionalFile(c, s6, w.maxTemplate, "web.maxtemplate");
    OptionalFileMissing(c, s, w.header, "web.header");
    OptionalFileMissing(c, s1, w.footer, "web.footer");
    OptionalFileMissing(c, s2, w.empty, "web.empty");
    OptionalFileMissing(c, s3, w.error, "web.error");
    OptionalFileMissing(c, s4, w.template, "web.template");
    OptionalFileMissing(c, s5, w.minTemplate, "web.mintemplate");
    OptionalFileMissing(c, s6, w.maxTemplate, "web.maxtemplate");
    assert CheckWeb(c, s, w) == s7;
  }

  // ---- layers ----------------------------------------------------------------

  lemma UnnamedLayerSkipped(c: Ctx, m: MapObj, s: State, l: Layer)
    requires l.name.None?
    ensures CheckLayer(c, m, s, l) == s
  {
  }

  /** The template placeholder "dummy" is treated as no template at all. */
  lemma {:induction false} DummyTemplateSkipped(c: Ctx, m: MapObj, s: State, l: Layer)
    ensures CheckLayer(c, m, s, l.(template := Some(DummyTemplate))) == CheckLayer(c, m, s, l.(template := None))
  {
    var l1, l2 := l.(template := Some(DummyTemplate)), l.(template := None);
    if l.name.Some? {
      var s1 := Fold(s, l.classes, ClassStep(c, m.symbolset.symbols));
      assert CheckConnection(c, m.shapepath, s1, l1) == CheckConnection(c, m.shapepath, s1, l2);
    }
  }

  /** Any other template, "dummy.html" included, is one more reference or
      warning than none. */
  lemma {:induction false} OtherTemplateResolved(c: Ctx, m: MapObj, s: State, l: Layer, t: string)
    requires l.name.Some? && t != DummyTemplate
    ensures Weight(CheckLayer(c, m, s, l.(template := Some(t))))
      == Weight(CheckLayer(c, m, s, l.(template := None))) + 1
  {
    var l1, l2 := l.(template := Some(t)), l.(template := None);
    AppendsWeight(s, CheckLayer(c, m, s, l1), LayerReport(c, m, l1));
    AppendsWeight(s, CheckLayer(c, m, s, l2), LayerReport(c, m, l2));
    TemplateReportSize(c, m, l1, l2);
  }

  /** The dispatch and the flags do not look at the template. */
  lemma TemplateIrrelevant(c: Ctx, shapepath: Option<string>, l1: Layer, l2: Layer)
    requires l2 == l1.(template := l2.template)
    ensures ConnectionReport(c, shapepath, l2) == ConnectionReport(c, shapepath, l1)
    ensures LayerFlags(l2) == LayerFlags(l1)
  {
  }

  /** Two named layers that differ only in their template: the one whose
      template resolves adds one reference or warning more. */
  lemma TemplateReportSize(c: Ctx, m: MapObj, l1: Layer, l2: Layer)
    requires l1.name.Some? && l2 == l1.(template := None)
    requires l1.template.Some? && l1.template.value != DummyTemplate
    ensures Size(LayerReport(c, m, l1)) == Size(LayerReport(c, m, l2)) + 1
  {
    var pre := Then(Collect(l1.classes, ClassReports(c, m.symbolset.symbols)), ConnectionReport(c, m.shapepath, l1));
    var flags := Report(LayerFlags(l1), multiset{});
    var f1, f2 := LayerFilesReport(c, l1), LayerFilesReport(c, l2);
    TemplateIrrelevant(c, m.shapepath, l1, l2);
    assert LayerReport(c, m, l1) == Then(Then(pre, f1), flags);
    assert LayerReport(c, m, l2) == Then(Then(pre, f2), flags);
    SizeThen(Then(pre, f1), flags);
    SizeThen(Then(pre, f2), flags);
    SizeThen(pre, f1);
    SizeThen(pre, f2);
    var head := Then(OptionalReport(c, l1.footer, "layer.footer"), OptionalReport(c, l1.header, "layer.header"));
    var t := FileReport(c, l1.template.value, "layer.template");
    assert Size(t) == 1;
    assert f1 == Then(head, t) && f2 == Then(head, NoReport);
    SizeThen(head, t);
    SizeThen(head, NoReport);
  }

  /** When none of a layer's own files resolves, each set one is reported
      under its own kind, footer before header before template, and nothing
      is recorded. */
  lemma LayerFilesAllMissing(c: Ctx, s: State, l: Layer)
    requires Missing(c, l.footer) && Missing(c, l.header) && Missing(c, ResolvedTemplate(l))
    ensures var r := CheckLayerFiles(c, s, l);
      && r.requiredFiles == s.requiredFiles
      && r.warnings == s.warnings + MissingWarning(c, l.footer, "layer.footer")
        + MissingWarning(c, l.header, "layer.header") + MissingWarning(c, ResolvedTemplate(l), "layer.template")
  {
    var r := CheckLayerFiles(c, s, l);
    var a, b, d := MissingWarning(c, l.footer, "layer.footer"), MissingWarning(c, l.header, "layer.header"),
      MissingWarning(c, ResolvedTemplate(l), "layer.template");
    assert LayerFilesReport(c, l).warnings == a + b + d;
    assert r.warnings == s.warnings + (a + b + d);
  }

  /** A named layer's report ends with its flags. */
  lemma LayerEndsWithFlags(c: Ctx, m: MapObj, s: State, l: Layer)
    requires l.name.Some?
    ensures var r, flags := CheckLayer(c, m, s, l), LayerFlags(l);
      && |s.warnings| + |flags| <= |r.warnings|
      && r.warnings[|r.warnings| - |flags|..] == flags
  {
    AppendsLayerEndsWithFlags(c, m, s, CheckLayer(c, m, s, l), l);
  }

  /** The same, for any state the layer's report is appended to. */
  lemma AppendsLayerEndsWithFlags(c: Ctx, m: MapObj, s: State, r: State, l: Layer)
    requires l.name.Some? && Appends(s, r, LayerReport(c, m, l))
    ensures |s.warnings| + |LayerFlags(l)| <= |r.warnings|
    ensures r.warnings[|r.warnings| - |LayerFlags(l)|..] == LayerFlags(l)
  {
    var flags := LayerFlags(l);
    var pre := Then(Then(Collect(l.classes, ClassReports(c, m.symbolset.symbols)),
      ConnectionReport(c, m.shapepath, l)), LayerFilesReport(c, l));
    assert LayerReport(c, m, l) == Then(pre, Report(flags, multiset{}));
    AppendsEndsWith(s, r, pre, flags);
  }

  /** The element `k` places from the start of a suffix. */
  lemma SuffixAt(w: seq<string>, tail: seq<string>, k: nat)
    requires |tail| <= |w| && w[|w| - |tail|..] == tail && k < |tail|
    ensures w[|w| - |tail| + k] == tail[k]
  {
    assert w[|w| - |tail|..][k] == w[|w| - |tail| + k];
  }

  /** Whatever the connection type, a named layer's tile index is flagged
      after everything but the plugin library warning. */
  lemma TileIndexAlwaysFlagged(c: Ctx, m: MapObj, s: State, l: Layer)
    requires l.name.Some? && l.tileIndex.Some?
    ensures var r := CheckLayer(c, m, s, l);
      && |s.warnings| < |r.warnings|
      && r.warnings[|r.warnings| - 1 - Present(l.pluginLibrary)] == TileIndexWarning(l.tileIndex.value)
  {
    var r, flags := CheckLayer(c, m, s, l), LayerFlags(l);
    AppendsLayerEndsWithFlags(c, m, s, r, l);
    FlagsEndWithTileIndex(l);
    SuffixAt(r.warnings, flags, |flags| - 1 - Present(l.pluginLibrary));
  }

  lemma FlagsEndWithTileIndex(l: Layer)
    requires l.tileIndex.Some?
    ensures var flags := LayerFlags(l);
      1 + Present(l.pluginLibrary) <= |flags| && flags[|flags| - 1 - Present(l.pluginLibrary)] == TileIndexWarning(l.tileIndex.value)
  {
    var js := if l.styleItem.Some? && StartsWith(l.styleItem.value, JavascriptScheme) then [JavascriptWarning(l.styleItem.value)] else [];
    var pl := if l.pluginLibrary.Some? then [PluginWarning(l.pluginLibrary.value)] else [];
    assert LayerFlags(l) == (js + [TileIndexWarning(l.tileIndex.value)]) + pl;
  }

  /** A "javascript://" style item is flagged with its full value, after
      which only the tile index and plugin library warnings can follow. */
  lemma JavascriptStyleItemFlagged(c: Ctx, m: MapObj, s: State, l: Layer)
    requires l.name.Some? && l.styleItem.Some? && StartsWith(l.styleItem.value, JavascriptScheme)
    ensures var r := CheckLayer(c, m, s, l);
      && |s.warnings| < |r.warnings|
      && r.warnings[|r.warnings| - 1 - Present(l.tileIndex) - Present(l.pluginLibrary)] == JavascriptWarning(l.styleItem.value)
  {
    var r, flags := CheckLayer(c, m, s, l), LayerFlags(l);
    AppendsLayerEndsWithFlags(c, m, s, r, l);
    FlagsStartWithJavascript(l);
    SuffixAt(r.warnings, flags, 0);
  }

  lemma FlagsStartWithJavascript(l: Layer)
    requires l.styleItem.Some? && StartsWith(l.styleItem.value, JavascriptScheme)
    ensures var flags := LayerFlags(l);
      && |flags| == 1 + Present(l.tileIndex) + Present(l.pluginLibrary)
      && flags[0] == JavascriptWarning(l.styleItem.value)
  {
  }

  /** A plugin library is flagged by name, and its warning is the layer's last. */
  lemma PluginLibraryFlagged(c: Ctx, m: MapObj, s: State, l: Layer)
    requires l.name.Some? && l.pluginLibrary.Some?
    ensures var r := CheckLayer(c, m, s, l);
      && |s.warnings| < |r.warnings|
      && r.warnings[|r.warnings| - 1] == "Found Plugin Library " + l.pluginLibrary.value + " needs manual review"
  {
    var r, flags := CheckLayer(c, m, s, l), LayerFlags(l);
    AppendsLayerEndsWithFlags(c, m, s, r, l);
    assert flags[|flags| - 1] == PluginWarning(l.pluginLibrary.value);
    SuffixAt(r.warnings, flags, |flags| - 1);
  }

  // ---- the whole walk --------------------------------------------------------

  /** A map with no font set or symbol set file, no web files, only
      non-TEMPLATE output formats and only unnamed layers leaves the state
      exactly as it was. */
  lemma QuietMapChangesNothing(env: Env, m: MapObj, s: State)
    requires forall f :: f in m.outputFormats ==> f.driver != TemplateDriver
    requires forall l :: l in m.layers ==> l.name.None?
    requires m.fontset.filename.None? && m.symbolset.filename.None?
    requires m.web == Web(None, None, None, None, None, None, None)
    ensures ProcessMapfile(env, m, s) == s
  {
    FoldIdle(s, m.outputFormats, CheckOutputFormat);
    FoldIdle(s, m.layers, LayerStep(WalkCtx(env, m), m));
  }
}

=== FILE: resolver.dfy ===
/** The helpers `add_file`, `add_font` and `add_symbol` of mapfile.cc. */
module Resolver {
  import opened Optional
  import opened BoostPath
  import opened MapModel
  import opened Inventory

  /** The filesystem as seen from a working directory: each function takes
      the current directory and a path as written (relative paths are
      relative to that directory). `canonical` resolves symbolic links and
      dot segments; `glob` lists the matches of a pattern in the order glob(3)
      returns them, and is empty when glob(3) fails or nothing matches. */
  datatype FileSystem = FileSystem(
    pathExists: (string, string) -> bool,
    canonical: (string, string) -> string,
    glob: (string, string) -> seq<string>)

  /** The process environment: the filesystem, the current directory, and the
      parent directory of `MS_DEFAULT_MAPFILE` when that variable is set. */
  datatype Env = Env(fs: FileSystem, cwd: string, defaultDir: Option<string>)

  /** What the helpers read: the environment at the current directory, the
      map's `mappath` and its font set table. */
  datatype Ctx = Ctx(env: Env, cwd: string, mappath: string, fonts: map<string, string>)

  predicate Exists(c: Ctx, p: string) {
    c.env.fs.pathExists(c.cwd, p)
  }

  function Canonical(c: Ctx, p: string): string {
    c.env.fs.canonical(c.cwd, p)
  }

  /** The fallback lookup under the directory of the default map file hits. */
  predicate FoundViaDefault(c: Ctx, p: string) {
    c.env.defaultDir.Some? && Exists(c, Join(c.env.defaultDir.value, p))
  }

  function NotFound(kind: string, expected: string): string {
    kind + ": " + expected + " not found!"
  }

  /** What `add_file` adds for `p`: one reference to the canonical path it
      resolves to (under the fallback directory first), or else the one
      "not found" warning. */
  function FileReport(c: Ctx, p: string, kind: string): Report {
    if FoundViaDefault(c, p) then Report([], multiset{Canonical(c, Join(c.env.defaultDir.value, p))})
    else if Exists(c, p) then Report([], multiset{Canonical(c, p)})
    else Report([NotFound(kind, Anchored(c.mappath, p))], multiset{})
  }

  /** `add_file`: the fallback directory is tried first, then the path as
      given; a hit records one reference to the canonical path, a miss
      records one warning and no reference. */
  function AddFile(c: Ctx, s: State, p: string, kind: string): (r: State)
    ensures FoundViaDefault(c, p) ==>
      && r.requiredFiles == s.requiredFiles + multiset{Canonical(c, Join(c.env.defaultDir.value, p))}
      && r.warnings == s.warnings && r.needsManualReview == s.needsManualReview
    ensures !FoundViaDefault(c, p) && Exists(c, p) ==>
      && r.requiredFiles == s.requiredFiles + multiset{Canonical(c, p)}
      && r.warnings == s.warnings && r.needsManualReview == s.needsManualReview
    ensures !FoundViaDefault(c, p) && !Exists(c, p) ==>
      && r.requiredFiles == s.requiredFiles
      && r.warnings == s.warnings + [NotFound(kind, Anchored(c.mappath, p))]
    ensures Grows(s, r, 1)
    ensures Appends(s, r, FileReport(c, p, kind))
  {
    if FoundViaDefault(c, p) then Record(s, Canonical(c, Join(c.env.defaultDir.value, p)))
    else if Exists(c, p) then Record(s, Canonical(c, p))
    else AddWarning(s, NotFound(kind, Anchored(c.mappath, p)))
  }

  /** What `add_font` adds: the font set's file resolved as a "font", or the
      warning that the font set lacks the name. */
  function FontReport(c: Ctx, font: string): Report {
    if font in c.fonts then FileReport(c, c.fonts[font], "font")
    else Report(["FONT " + font + " not found in fontset"], multiset{})
  }

  /** `add_font`: a font the font set names is resolved as a file of kind
      "font"; any other name is one warning and no reference. */
  function AddFont(c: Ctx, s: State, font: string): (r: State)
    ensures font in c.fonts ==> r == AddFile(c, s, c.fonts[font], "font")
    ensures font !in c.fonts ==>
      && r.requiredFiles == s.requiredFiles
      && r.warnings == s.warnings + ["FONT " + font + " not found in fontset"]
    ensures Grows(s, r, 1)
    ensures Appends(s, r, FontReport(c, font))
  {
    if font in c.fonts then AddFile(c, s, c.fonts[font], "font")
    else AddWarning(s, "FONT " + font + " not found in fontset")
  }

  /** Some entry of the symbol set has this name. */
  predicate Named(symbols: seq<Symbol>, name: string) {
    exists i :: 0 <= i < |symbols| && symbols[i].name == Some(name)
  }

  /** What one symbol of the set contributes to a lookup of `name`: nothing
      unless it has that name; a TrueType symbol's font goes through the font
      set, a Pixmap symbol's full path is resolved as an "image". */
  function SymbolReport(c: Ctx, name: string, sym: Symbol): Report {
    if sym.name != Some(name) then NoReport
    else if sym.kind == TrueType && sym.font.Some? then FontReport(c, sym.font.value)
    else if sym.kind == Pixmap && sym.fullPixmapPath.Some? then FileReport(c, sym.fullPixmapPath.value, "image")
    else NoReport
  }

  function SymbolReports(c: Ctx, name: string): Symbol -> Report {
    (sym: Symbol) => SymbolReport(c, name, sym)
  }

  /** What `add_symbol` adds: the contributions of every same-named symbol in
      set order, or the single "NOT FOUND" warning when none has the name. */
  function AddSymbolReport(c: Ctx, symbols: seq<Symbol>, name: string): Report {
    if Named(symbols, name) then Collect(symbols, SymbolReports(c, name))
    else Report(["Symbol " + name + " NOT FOUND"], multiset{})
  }

  /** One iteration of the symbol scan: a symbol of the given name has its
      TrueType font or its pixmap resolved; any other symbol is passed over. */
  function ScanSymbol(c: Ctx, name: string, s: State, sym: Symbol): (r: State)
    ensures Appends(s, r, SymbolReport(c, name, sym))
  {
    if sym.name == Some(name) then
      var s1 := if sym.kind == TrueType && sym.font.Some? then AddFont(c, s, sym.font.value) else s;
      if sym.kind == Pixmap && sym.fullPixmapPath.Some? then AddFile(c, s1, sym.fullPixmapPath.value, "image") else s1
    else s
  }

  function SymbolScan(c: Ctx, name: string): (State, Symbol) -> State {
    (s: State, sym: Symbol) => ScanSymbol(c, name, s, sym)
  }

  /** 1 for a symbol of the given name that carries a file reference. */
  function Refs(name: string): Symbol -> nat {
    (sym: Symbol) =>
      if sym.name == Some(name) && ((sym.kind == TrueType && sym.font.Some?) || (sym.kind == Pixmap && sym.fullPixmapPath.Some?))
      then 1 else 0
  }

  /** References and warnings one `add_symbol` call records: one per
      same-named symbol with a font or pixmap, or the single "not found". */
  function SymbolDemand(symbols: seq<Symbol>, name: string): nat {
    if Named(symbols, name) then Sum(symbols, Refs(name)) else 1
  }

  lemma ScanSymbolGrows(c: Ctx, name: string, s: State, sym: Symbol)
    ensures Grows(s, ScanSymbol(c, name, s, sym), Refs(name)(sym))
  {
  }

  lemma {:induction false} ScanGrows(c: Ctx, symbols: seq<Symbol>, name: string, s: State)
    ensures Grows(s, Fold(s, symbols, SymbolScan(c, name)), Sum(symbols, Refs(name)))
  {
    forall a, sym | sym in symbols
      ensures Grows(a, SymbolScan(c, name)(a, sym), Refs(name)(sym))
    {
      ScanSymbolGrows(c, name, a, sym);
    }
    FoldGrows(s, symbols, SymbolScan(c, name), Refs(name));
  }

  lemma {:induction false} ScanUnnamedIdle(c: Ctx, symbols: seq<Symbol>, name: string, s: State)
    requires !Named(symbols, name)
    ensures Fold(s, symbols, SymbolScan(c, name)) == s
  {
    forall a, sym | sym in symbols ensures SymbolScan(c, name)(a, sym) == a {
      var i :| 0 <= i < |symbols| && symbols[i] == sym;
    }
    FoldIdle(s, symbols, SymbolScan(c, name));
  }

  /** `add_symbol`: scans the whole symbol set without stopping at the first
      match, then warns once if no symbol had the name. */
  function AddSymbol(c: Ctx, symbols: seq<Symbol>, s: State, name: string): (r: State)
    ensures !Named(symbols, name) ==>
      && r.requiredFiles == s.requiredFiles
      && r.warnings == s.warnings + ["Symbol " + name + " NOT FOUND"]
    ensures Grows(s, r, SymbolDemand(symbols, name))
    ensures Appends(s, r, AddSymbolReport(c, symbols, name))
  {
    var scanned := Fold(s, symbols, SymbolScan(c, name));
    ScanGrows(c, symbols, name, s);
    FoldAppends(s, symbols, SymbolScan(c, name), SymbolReports(c, name));
    if Named(symbols, name) then scanned
    else
      ScanUnnamedIdle(c, symbols, name, s);
      AddWarning(scanned, "Symbol " + name + " NOT FOUND")
  }

  /** A later symbol of the same name still acts after an earlier match: the
      scan has no early exit. */
  lemma AddSymbolLaterDuplicateActs(c: Ctx, symbols: seq<Symbol>, s: State, name: string, sym: Symbol)
    requires Named(symbols, name) && sym.name == Some(name)
    ensures AddSymbol(c, symbols + [sym], s, name) == ScanSymbol(c, name, AddSymbol(c, symbols, s, name), sym)
  {
    var i :| 0 <= i < |symbols| && symbols[i].name == Some(name);
    assert (symbols + [sym])[i] == symbols[i];
    FoldSnoc(s, symbols, sym, SymbolScan(c, name));
  }
}

=== FILE: walker.dfy ===
/** `Mapfile::process_mapfile` and the constructor's initial state: the walk
    over output formats, font set, symbol set, web block and layers. Every
    piece of the walk is stated against its `Report`: the warnings it
    appends, in order, and the references it counts. */
module Walker {
  import opened Optional
  import opened Decimal
  import opened BoostPath
  import opened MapModel
  import opened Inventory
  import opened Resolver

  const TemplateDriver: string := "TEMPLATE"
  const FileOptionPrefix: string := "FILE="
  const JavascriptScheme: string := "javascript://"
  const DummyTemplate: string := "dummy"

  predicate StartsWith(s: string, prefix: string) {
    prefix <= s
  }

  /** The helpers' view at construction time: the caller's directory. */
  function OpenCtx(env: Env, m: MapObj): Ctx {
    Ctx(env, env.cwd, m.mappath, m.fontset.fonts)
  }

  /** The helpers' view during the walk: the directory is switched to
      `mappath` (`current_path(mappath)`, taken under the caller's directory
      when relative) for its whole duration (and restored after it, which the
      model gets for free since `env` is never changed). */
  function WalkCtx(env: Env, m: MapObj): Ctx {
    Ctx(env, Anchored(env.cwd, m.mappath), m.mappath, m.fontset.fonts)
  }

  /** The constructor: the map file itself is the first dependency, found
      from the caller's directory, and nothing else is recorded yet. */
  function Open(env: Env, m: MapObj, mapfile: string): (r: State)
    ensures Appends(Initial, r, FileReport(OpenCtx(env, m), mapfile, "mapfile"))
    ensures Valid(r) && Weight(r) == 1
  {
    AddFile(OpenCtx(env, m), Initial, mapfile, "mapfile")
  }

  // ---- output formats ------------------------------------------------------

  function FormatWarning(f: OutputFormat, option: string): string {
    "OUTPUTFORMAT: " + f.name + " " + f.driver + " " + option
  }

  function FormatOptionStep(f: OutputFormat): (State, string) -> State {
    (s: State, o: string) => if StartsWith(o, FileOptionPrefix) then AddWarning(s, FormatWarning(f, o)) else s
  }

  /** The warnings a TEMPLATE format's options call for, in order. */
  function FlaggedOptions(f: OutputFormat, options: seq<string>): seq<string>
    decreases |options|
  {
    if |options| == 0 then []
    else
      var head := if StartsWith(options[0], FileOptionPrefix) then [FormatWarning(f, options[0])] else [];
      head + FlaggedOptions(f, options[1..])
  }

  lemma {:induction false} FormatOptionsFlag(f: OutputFormat, s: State, options: seq<string>)
    ensures Appends(s, Fold(s, options, FormatOptionStep(f)), Report(FlaggedOptions(f, options), multiset{}))
    decreases |options|
  {
    if |options| == 0 {
      assert s.warnings + [] == s.warnings;
    } else {
      var s1 := FormatOptionStep(f)(s, options[0]);
      FormatOptionsFlag(f, s1, options[1..]);
      var head := if StartsWith(options[0], FileOptionPrefix) then [FormatWarning(f, options[0])] else [];
      assert Appends(s, s1, Report(head, multiset{}));
      AppendsThen(s, s1, Fold(s1, options[1..], FormatOptionStep(f)), Report(head, multiset{}), Report(FlaggedOptions(f, options[1..]), multiset{}));
    }
  }

  /** What an output format adds: a warning per FILE= option of a TEMPLATE
      format, and never a reference. */
  function FormatReport(f: OutputFormat): Report {
    if f.driver == TemplateDriver then Report(FlaggedOptions(f, f.options), multiset{}) else NoReport
  }

  /** A TEMPLATE output format flags each FILE= option; others are ignored. */
  function CheckOutputFormat(s: State, f: OutputFormat): (r: State)
    ensures Appends(s, r, FormatReport(f))
  {
    FormatOptionsFlag(f, s, f.options);
    if f.driver == TemplateDriver then Fold(s, f.options, FormatOptionStep(f)) else s
  }

  // ---- plain file fields -----------------------------------------------------

  function OptionalReport(c: Ctx, p: Option<string>, kind: string): Report {
    if p.Some? then FileReport(c, p.value, kind) else NoReport
  }

  /** A field that may be NULL: resolved when set, skipped otherwise. */
  function OptionalFile(c: Ctx, s: State, p: Option<string>, kind: string): (r: State)
    ensures Appends(s, r, OptionalReport(c, p, kind))
  {
    if p.Some? then AddFile(c, s, p.value, kind) else s
  }

  /** What the web block adds: its seven template fields, each under its own
      "web.<field>" kind, in the order the source checks them. */
  function WebReport(c: Ctx, w: Web): Report {
    Then(Then(Then(Then(Then(Then(
      OptionalReport(c, w.header, "web.header"),
      OptionalReport(c, w.footer, "web.footer")),
      OptionalReport(c, w.empty, "web.empty")),
      OptionalReport(c, w.error, "web.error")),
      OptionalReport(c, w.template, "web.template")),
      OptionalReport(c, w.minTemplate, "web.mintemplate")),
      OptionalReport(c, w.maxTemplate, "web.maxtemplate"))
  }

  function CheckWeb(c: Ctx, s: State, w: Web): (r: State)
    ensures Appends(s, r, WebReport(c, w))
  {
    var s1 := OptionalFile(c, s, w.header, "web.header");
    var s2 := OptionalFile(c, s1, w.footer, "web.footer");
    var s3 := OptionalFile(c, s2, w.empty, "web.empty");
    var s4 := OptionalFile(c, s3, w.error, "web.error");
    var s5 := OptionalFile(c, s4, w.template, "web.template");
    var s6 := OptionalFile(c, s5, w.minTemplate, "web.mintemplate");
    var s7 := OptionalFile(c, s6, w.maxTemplate, "web.maxtemplate");
    AppendsThen(s, s1, s2, OptionalReport(c, w.header, "web.header"), OptionalReport(c, w.footer, "web.footer"));
    var r2 := Then(OptionalReport(c, w.header, "web.header"), OptionalReport(c, w.footer, "web.footer"));
    AppendsThen(s, s2, s3, r2, OptionalReport(c, w.empty, "web.empty"));
    var r3 := Then(r2, OptionalReport(c, w.empty, "web.empty"));
    AppendsThen(s, s3, s4, r3, OptionalReport(c, w.error, "web.error"));
    var r4 := Then(r3, OptionalReport(c, w.error, "web.error"));
    AppendsThen(s, s4, s5, r4, OptionalReport(c, w.template, "web.template"));
    var r5 := Then(r4, OptionalReport(c, w.template, "web.template"));
    AppendsThen(s, s5, s6, r5, OptionalReport(c, w.minTemplate, "web.mintemplate"));
    var r6 := Then(r5, OptionalReport(c, w.minTemplate, "web.mintemplate"));
    AppendsThen(s, s6, s7, r6, OptionalReport(c, w.maxTemplate, "web.maxtemplate"));
    s7
  }

  // ---- classes -------------------------------------------------------------

  function StyleStep(c: Ctx, symbols: seq<Symbol>): (State, Style) -> State {
    (s: State, st: Style) => if st.symbolName.Some? then AddSymbol(c, symbols, s, st.symbolName.value) else s
  }

  function StyleReport(c: Ctx, symbols: seq<Symbol>): Style -> Report {
    (st: Style) => if st.symbolName.Some? then AddSymbolReport(c, symbols, st.symbolName.value) else NoReport
  }

  function LabelStep(c: Ctx): (State, Label) -> State {
    (s: State, lb: Label) => if lb.font.Some? then AddFont(c, s, lb.font.value) else s
  }

  function LabelReport(c: Ctx): Label -> Report {
    (lb: Label) => if lb.font.Some? then FontReport(c, lb.font.value) else NoReport
  }

  /** What a class adds: its template, then each style's symbol lookup, then
      each label's font lookup. */
  function ClassReport(c: Ctx, symbols: seq<Symbol>, k: ClassObj): Report {
    Then(Then(OptionalReport(c, k.template, "layer.class.template"),
      Collect(k.styles, StyleReport(c, symbols))),
      Collect(k.labels, LabelReport(c)))
  }

  function CheckClass(c: Ctx, symbols: seq<Symbol>, s: State, k: ClassObj): (r: State)
    ensures Appends(s, r, ClassReport(c, symbols, k))
  {
    var s1 := OptionalFile(c, s, k.template, "layer.class.template");
    var s2 := Fold(s1, k.styles, StyleStep(c, symbols));
    var s3 := Fold(s2, k.labels, LabelStep(c));
    FoldAppends(s1, k.styles, StyleStep(c, symbols), StyleReport(c, symbols));
    FoldAppends(s2, k.labels, LabelStep(c), LabelReport(c));
    AppendsThen(s, s1, s2, OptionalReport(c, k.template, "layer.class.template"), Collect(k.styles, StyleReport(c, symbols)));
    AppendsThen(s, s2, s3,
      Then(OptionalReport(c, k.template, "layer.class.template"), Collect(k.styles, StyleReport(c, symbols))),
      Collect(k.labels, LabelReport(c)));
    s3
  }

  function ClassStep(c: Ctx, symbols: seq<Symbol>): (State, ClassObj) -> State {
    (s: State, k: ClassObj) => CheckClass(c, symbols, s, k)
  }

  function ClassReports(c: Ctx, symbols: seq<Symbol>): ClassObj -> Report {
    (k: ClassObj) => ClassReport(c, symbols, k)
  }

  // ---- connection types ----------------------------------------------------

  /** `path("") /= shapepath`, or the empty path when no shape path is set. */
  function ShapeDir(shapepath: Option<string>): (d: string)
    ensures shapepath.Some? ==> d == shapepath.value
    ensures shapepath.None? ==> d == ""
  {
    if shapepath.Some? then Join("", shapepath.value) else ""
  }

  /** The glob pattern of a shapefile dataset: `shapepath/file` with its
      extension replaced by ".*". The pattern starts with the shape path, its
      stem ends with the stem of `file`, and it is the shape path joined by
      `/=` to the stem of `file`, or for an empty stem, to nothing but the
      separator `/=` would insert before `file`. */
  function GlobPattern(shapepath: Option<string>, file: string): (g: string)
    ensures Extension(g) == ".*"
    ensures file != "" ==> var stem := file[..|file| - ExtensionLength(file)];
      |stem| + 2 <= |g| && g[|g| - 2 - |stem|..|g| - 2] == stem
    ensures file != "" && shapepath.Some? ==> shapepath.value <= g
  {
    var dir := ShapeDir(shapepath);
    ReplaceExtensionWildcard(Join(dir, file));
    WildcardStem(dir, file);
    ReplaceExtension(Join(dir, file), ".*")
  }

  /** A non-empty stem is joined to the shape path by `/=`, so the
      separator between them is the one `/=` inserts. */
  lemma {:induction false} GlobPatternStem(shapepath: Option<string>, file: string)
    ensures var g, stem := GlobPattern(shapepath, file), file[..|file| - ExtensionLength(file)];
      stem != "" ==> g == Join(ShapeDir(shapepath), stem) + ".*"
  {
    if |file| - ExtensionLength(file) > 0 {
      GlobPatternIs(shapepath, file);
      StemJunction(ShapeDir(shapepath), file);
    }
  }

  /** A dataset name that is all extension (".shp") leaves the shape path
      and the separator `/=` put before the name, then ".*". */
  lemma {:induction false} GlobPatternEmptyStem(shapepath: Option<string>, file: string)
    ensures var g, d := GlobPattern(shapepath, file), Join(ShapeDir(shapepath), file);
      file != "" && ExtensionLength(file) == |file| ==> g == d[..|d| - |file|] + ".*"
  {
    if file != "" && ExtensionLength(file) == |file| {
      GlobPatternIs(shapepath, file);
      EmptyStemJunction(ShapeDir(shapepath), file);
    }
  }

  /** An empty dataset name globs the shape path's own stem. */
  lemma {:induction false} GlobPatternEmptyName(shapepath: Option<string>)
    ensures var g, d := GlobPattern(shapepath, ""), ShapeDir(shapepath);
      g == d[..|d| - ExtensionLength(d)] + ".*"
  {
    GlobPatternIs(shapepath, "");
    EmptyNameGlob(ShapeDir(shapepath));
  }

  lemma GlobPatternIs(shapepath: Option<string>, file: string)
    ensures GlobPattern(shapepath, file) == ReplaceExtension(Join(ShapeDir(shapepath), file), ".*")
  {
  }

  /** For a non-empty stem, the wildcard pattern of `dir /= file` is
      `dir /= stem` followed by ".*". */
  lemma {:induction false} StemJunction(dir: string, file: string)
    requires |file| - ExtensionLength(file) > 0
    ensures ReplaceExtension(Join(dir, file), ".*") == Join(dir, file[..|file| - ExtensionLength(file)]) + ".*"
  {
    JoinKeepsExtension(dir, file);
    JoinPrefix(dir, file, |file| - ExtensionLength(file));
    ReplaceWholeExtension(Join(dir, file), Join(dir, file[..|file| - ExtensionLength(file)]),
      file[|file| - ExtensionLength(file)..], ExtensionLength(file));
  }

  /** For an empty stem, only the junction `/=` put before `file` stays. */
  lemma {:induction false} EmptyStemJunction(dir: string, file: string)
    requires file != "" && ExtensionLength(file) == |file|
    ensures ReplaceExtension(Join(dir, file), ".*") == Join(dir, file)[..|Join(dir, file)| - |file|] + ".*"
  {
    JoinKeepsExtension(dir, file);
    ReplaceKnownExtension(Join(dir, file), |file|);
  }

  /** An empty dataset name globs the directory's own stem. */
  lemma {:induction false} EmptyNameGlob(dir: string)
    ensures ReplaceExtension(Join(dir, ""), ".*") == dir[..|dir| - ExtensionLength(dir)] + ".*"
  {
    assert Join(dir, "") == dir;
    ReplaceKnownExtension(dir, ExtensionLength(dir));
  }

  /** The wildcard pattern of `dir /= file` starts with `dir` and ends
      before its ".*" with the stem of `file`. */
  lemma {:induction false} WildcardStem(dir: string, file: string)
    ensures var g, n := ReplaceExtension(Join(dir, file), ".*"), |file| - ExtensionLength(file);
      file != "" ==> n + 2 <= |g| && g[|g| - 2 - n..|g| - 2] == file[..n] && dir <= g
  {
    if file != "" {
      var base, e := Join(dir, file), ExtensionLength(file);
      GlobStem(dir, file);
      ReplaceKnownExtension(base, e);
      var stem := base[..|base| - e];
      HeadSlice(stem + ".*", stem, ".*", |base| - |file|);
      assert stem[..|dir|] == dir;
    }
  }

  /** `dir /= file` with its extension cut off still starts with `dir` and
      ends with the stem of `file`. */
  lemma {:induction false} GlobStem(dir: string, file: string)
    requires file != ""
    ensures var base, e := Join(dir, file), ExtensionLength(file);
      && ExtensionLength(base) == e
      && |dir| + |file| - e <= |base| - e
      && base[..|base| - e][|base| - |file|..] == file[..|file| - e]
      && dir <= base[..|base| - e]
  {
    var base, e := Join(dir, file), ExtensionLength(file);
    JoinKeepsExtension(dir, file);
    CutSuffix(base, file, e);
    KeepPrefix(base, dir, |base| - e);
  }

  /** Cutting a string no shorter than its prefix `d` keeps that prefix. */
  lemma KeepPrefix(b: string, d: string, k: nat)
    requires d <= b && |d| <= k <= |b|
    ensures d <= b[..k]
  {
    assert b[..k][..|d|] == b[..|d|];
  }

  /** Cutting `e` characters off a string that ends with `f` cuts them off `f`. */
  lemma {:induction false} CutSuffix(b: string, f: string, e: nat)
    requires |f| <= |b| && b[|b| - |f|..] == f && e <= |f|
    ensures b[..|b| - e][|b| - |f|..] == f[..|f| - e]
  {
    forall j | 0 <= j < |f| - e ensures b[..|b| - e][|b| - |f| + j] == f[j] {
      assert b[|b| - |f| + j] == b[|b| - |f|..][j];
    }
  }

  function Matches(c: Ctx, shapepath: Option<string>, file: string): seq<string> {
    c.env.fs.glob(c.cwd, GlobPattern(shapepath, file))
  }

  function AddFileStep(c: Ctx, kind: string): (State, string) -> State {
    (s: State, p: string) => AddFile(c, s, p, kind)
  }

  function FileReports(c: Ctx, kind: string): string -> Report {
    (p: string) => FileReport(c, p, kind)
  }

  /** What a shapefile layer adds: for a tile index, the review warning and
      then every glob match resolved as "layer.tileindex"; otherwise every
      glob match of the data resolved as "layer.data". */
  function ShapefileReport(c: Ctx, shapepath: Option<string>, l: Layer): Report {
    if l.tileIndex.Some? then
      Then(Report(["TILEINDEX needs manual review"], multiset{}),
        Collect(Matches(c, shapepath, l.tileIndex.value), FileReports(c, "layer.tileindex")))
    else if l.data.Some? then Collect(Matches(c, shapepath, l.data.value), FileReports(c, "layer.data"))
    else NoReport
  }

  /** A shapefile layer: a tile index takes precedence over data; each glob
      match of the dataset is resolved as a file. */
  function CheckShapefile(c: Ctx, shapepath: Option<string>, s: State, l: Layer): (r: State)
    ensures Appends(s, r, ShapefileReport(c, shapepath, l))
  {
    if l.tileIndex.Some? then
      var s1 := AddWarning(s, "TILEINDEX needs manual review");
      var matches := Matches(c, shapepath, l.tileIndex.value);
      FoldAppends(s1, matches, AddFileStep(c, "layer.tileindex"), FileReports(c, "layer.tileindex"));
      AppendsThen(s, s1, Fold(s1, matches, AddFileStep(c, "layer.tileindex")),
        Report(["TILEINDEX needs manual review"], multiset{}), Collect(matches, FileReports(c, "layer.tileindex")));
      Fold(s1, matches, AddFileStep(c, "layer.tileindex"))
    else if l.data.Some? then
      var matches := Matches(c, shapepath, l.data.value);
      FoldAppends(s, matches, AddFileStep(c, "layer.data"), FileReports(c, "layer.data"));
      Fold(s, matches, AddFileStep(c, "layer.data"))
    else
      assert s.warnings + [] == s.warnings;
      s
  }

  /** The fixed warning of a connection type that can only be reviewed by
      hand, or the one echoing an unrecognised raw value. */
  function ConnectionWarning(conn: Connection): string {
    if conn.Unknown? then "CONNECTIONTYPE unknown (" + IntToString(conn.code) + "), requires manual review."
    else "CONNECTIONTYPE " + TagName(conn) + " requires manual review"
  }

  /** What the connection type dispatch adds: nothing for INLINE, the
      shapefile's files for SHAPEFILE, one review warning for any other. */
  function ConnectionReport(c: Ctx, shapepath: Option<string>, l: Layer): Report {
    match Classify(l.connectionType)
    case Inline => NoReport
    case Shapefile => ShapefileReport(c, shapepath, l)
    case _ => Report([ConnectionWarning(Classify(l.connectionType))], multiset{})
  }

  /** The connection type dispatch. */
  function CheckConnection(c: Ctx, shapepath: Option<string>, s: State, l: Layer): (r: State)
    ensures Classify(l.connectionType).Inline? ==> r == s
    ensures var conn := Classify(l.connectionType);
      !conn.Inline? && !conn.Shapefile? ==>
        && r.requiredFiles == s.requiredFiles
        && r.warnings == s.warnings + [ConnectionWarning(conn)]
    ensures Appends(s, r, ConnectionReport(c, shapepath, l))
  {
    var conn := Classify(l.connectionType);
    assert s.warnings + [] == s.warnings;
    if conn.Inline? then s
    else if conn.Shapefile? then CheckShapefile(c, shapepath, s, l)
    else AddWarning(s, ConnectionWarning(conn))
  }

  // ---- layers --------------------------------------------------------------

  /** The layer template that is resolved: any but the placeholder "dummy"
      (compared with its terminating NUL, so exactly). */
  function ResolvedTemplate(l: Layer): Option<string> {
    if l.template.Some? && l.template.value != DummyTemplate then l.template else None
  }

  /** What a layer's own files add: footer, header, then template, each
      under its own "layer.<field>" kind. */
  function LayerFilesReport(c: Ctx, l: Layer): Report {
    Then(Then(OptionalReport(c, l.footer, "layer.footer"),
      OptionalReport(c, l.header, "layer.header")),
      OptionalReport(c, ResolvedTemplate(l), "layer.template"))
  }

  /** The layer's own header, footer and template; the placeholder template
      "dummy" is skipped. */
  function CheckLayerFiles(c: Ctx, s: State, l: Layer): (r: State)
    ensures Appends(s, r, LayerFilesReport(c, l))
  {
    var s1 := OptionalFile(c, s, l.footer, "layer.footer");
    var s2 := OptionalFile(c, s1, l.header, "layer.header");
    var s3 := if l.template.Some? && l.template.value != DummyTemplate then AddFile(c, s2, l.template.value, "layer.template")
      else s2;
    assert Appends(s2, s3, OptionalReport(c, ResolvedTemplate(l), "layer.template"));
    AppendsThen(s, s1, s2, OptionalReport(c, l.footer, "layer.footer"), OptionalReport(c, l.header, "layer.header"));
    AppendsThen(s, s2, s3, Then(OptionalReport(c, l.footer, "layer.footer"), OptionalReport(c, l.header, "layer.header")),
      OptionalReport(c, ResolvedTemplate(l), "layer.template"));
    s3
  }

  function JavascriptWarning(styleItem: string): string {
    "Found javascript STYLEITEM " + styleItem
  }

  function TileIndexWarning(tileIndex: string): string {
    "Found TILEINDEX " + tileIndex + " needs manual review"
  }

  function PluginWarning(library: string): string {
    "Found Plugin Library " + library + " needs manual review"
  }

  /** The warnings every named layer gets whatever its connection type: a
      "javascript://" style item, a tile index, a plugin library, in that order. */
  function LayerFlags(l: Layer): seq<string> {
    (if l.styleItem.Some? && StartsWith(l.styleItem.value, JavascriptScheme) then [JavascriptWarning(l.styleItem.value)] else [])
      + (if l.tileIndex.Some? then [TileIndexWarning(l.tileIndex.value)] else [])
      + (if l.pluginLibrary.Some? then [PluginWarning(l.pluginLibrary.value)] else [])
  }

  function CheckLayerFlags(s: State, l: Layer): (r: State)
    ensures Appends(s, r, Report(LayerFlags(l), multiset{}))
  {
    var s1 := if l.styleItem.Some? && StartsWith(l.styleItem.value, JavascriptScheme) then AddWarning(s, JavascriptWarning(l.styleItem.value)) else s;
    var s2 := if l.tileIndex.Some? then AddWarning(s1, TileIndexWarning(l.tileIndex.value)) else s1;
    var s3 := if l.pluginLibrary.Some? then AddWarning(s2, PluginWarning(l.pluginLibrary.value)) else s2;
    assert s3.warnings == s.warnings + LayerFlags(l);
    s3
  }

  /** What a layer adds: nothing when it has no name; otherwise its classes,
      the connection dispatch, its own files and its flags, in that order. */
  function LayerReport(c: Ctx, m: MapObj, l: Layer): Report {
    if l.name.None? then NoReport
    else
      Then(Then(Then(Collect(l.classes, ClassReports(c, m.symbolset.symbols)),
        ConnectionReport(c, m.shapepath, l)),
        LayerFilesReport(c, l)),
        Report(LayerFlags(l), multiset{}))
  }

  /** A layer without a name is skipped entirely. */
  function CheckLayer(c: Ctx, m: MapObj, s: State, l: Layer): (r: State)
    ensures Appends(s, r, LayerReport(c, m, l))
  {
    if l.name.None? then
      assert s.warnings + [] == s.warnings;
      s
    else
      var s1 := Fold(s, l.classes, ClassStep(c, m.symbolset.symbols));
      var s2 := CheckConnection(c, m.shapepath, s1, l);
      var s3 := CheckLayerFiles(c, s2, l);
      var s4 := CheckLayerFlags(s3, l);
      var r1 := Collect(l.classes, ClassReports(c, m.symbolset.symbols));
      var r2 := Then(r1, ConnectionReport(c, m.shapepath, l));
      var r3 := Then(r2, LayerFilesReport(c, l));
      FoldAppends(s, l.classes, ClassStep(c, m.symbolset.symbols), ClassReports(c, m.symbolset.symbols));
      AppendsThen(s, s1, s2, r1, ConnectionReport(c, m.shapepath, l));
      AppendsThen(s, s2, s3, r2, LayerFilesReport(c, l));
      AppendsThen(s, s3, s4, r3, Report(LayerFlags(l), multiset{}));
      s4
  }

  function LayerStep(c: Ctx, m: MapObj): (State, Layer) -> State {
    (s: State, l: Layer) => CheckLayer(c, m, s, l)
  }

  function LayerReports(c: Ctx, m: MapObj): Layer -> Report {
    (l: Layer) => LayerReport(c, m, l)
  }

  // ---- the walk ------------------------------------------------------------

  /** What the walk adds: output formats, the font set file, the symbol set
      file, the web block, then the layers in order. */
  function MapReport(c: Ctx, m: MapObj): Report {
    Then(Then(Then(Then(Collect(m.outputFormats, FormatReport),
      OptionalReport(c, m.fontset.filename, "fontset")),
      OptionalReport(c, m.symbolset.filename, "symbolset")),
      WebReport(c, m.web)),
      Collect(m.layers, LayerReports(c, m)))
  }

  function ProcessMapfile(env: Env, m: MapObj, s: State): (r: State)
    ensures Appends(s, r, MapReport(WalkCtx(env, m), m))
  {
    var c := WalkCtx(env, m);
    var s1 := Fold(s, m.outputFormats, CheckOutputFormat);
    var s2 := OptionalFile(c, s1, m.fontset.filename, "fontset");
    var s3 := OptionalFile(c, s2, m.symbolset.filename, "symbolset");
    var s4 := CheckWeb(c, s3, m.web);
    var s5 := Fold(s4, m.layers, LayerStep(c, m));
    var r1 := Collect(m.outputFormats, FormatReport);
    var r2 := Then(r1, OptionalReport(c, m.fontset.filename, "fontset"));
    var r3 := Then(r2, OptionalReport(c, m.symbolset.filename, "symbolset"));
    var r4 := Then(r3, WebReport(c, m.web));
    FoldAppends(s, m.outputFormats, CheckOutputFormat, FormatReport);
    FoldAppends(s4, m.layers, LayerStep(c, m), LayerReports(c, m));
    AppendsThen(s, s1, s2, r1, OptionalReport(c, m.fontset.filename, "fontset"));
    AppendsThen(s, s2, s3, r2, OptionalReport(c, m.symbolset.filename, "symbolset"));
    AppendsThen(s, s3, s4, r3, WebReport(c, m.web));
    AppendsThen(s, s4, s5, r4, Collect(m.layers, LayerReports(c, m)));
    s5
  }

  /** Construction followed by the walk, as the command-line tool runs them:
      the map file's report, then the walk's, from the empty state; the
      review flag ends up set exactly when some warning was recorded. */
  function Run(env: Env, m: MapObj, mapfile: string): (r: State)
    ensures Appends(Initial, r, Then(FileReport(OpenCtx(env, m), mapfile, "mapfile"), MapReport(WalkCtx(env, m), m)))
    ensures Valid(r)
  {
    var s0 := Open(env, m, mapfile);
    var r := ProcessMapfile(env, m, s0);
    AppendsThen(Initial, s0, r, FileReport(OpenCtx(env, m), mapfile, "mapfile"), MapReport(WalkCtx(env, m), m));
    r
  }
}
